=== FILE: README.md ===
# ArtCanvas order flow in Dafny

ArtCanvas is a small art-commission site. A visitor fills in an order form. The
photo they upload is shown back to them as a grayscale preview. Submitting
posts the order to an endpoint, and the endpoint emails it to the studio
through the Resend API. The site can be switched between English and Arabic,
and switching also flips the text direction of the page.

This project models the logic behind that flow as pure Dafny functions and
proves properties of it:

- `Js` (js.dfy): the JSON values the endpoint parses, plus `undefined`,
  JavaScript truthiness, property reads that throw on `null`, and the `||`
  fallback.
- `Text` (text.dfy): the string operations used on input. These are the
  digit strip behind the WhatsApp link, JavaScript's `trim`, taking the
  second piece of `split("base64,")`, and the decimal rendering of a status
  code.
- `SendEmail` (send_email.dfy): the `POST` handler of the submission
  endpoint, as a function of the request body, the optional API key and the
  provider's answer. The provider is an input, and the result records the
  provider request when one was made. The notification email is a record of
  the values `buildEmailHtml` selects, not HTML.
- `Image` (image.dfy): the rule that fits the photo within 500 by 500
  pixels, and the luminance transform over an RGBA buffer of length 4·n. Both
  are stated in exact real arithmetic. The transform is given both as a
  function and as the page's in-place loop.
- `OrderForm` (order_form.dfy): the order page's state and its handlers:
  - field edits;
  - clearing the photo;
  - `validateForm`;
  - `submitOrder`: the alert on an invalid form, the request it posts, how
    it reads the answer, and the reset after a success.
- `Language` (language.dfy): the translation lookup with fallback to the
  key, the effect that writes `dir`, `lang` and the direction class onto the
  root element, the language toggle and its label, and the `useLanguage` hook.
- `Pipeline` (pipeline.dfy): the page and the endpoint connected. Anything
  the page lets through passes the endpoint's check and, once a key is
  configured, reaches the provider. The page then shows success exactly
  when the provider answered 2xx with a readable, non-null body.

## Model

| member | source | states |
|---|---|---|
| Js.Prop | app/api/send-email/route.ts:8 | reading a property fails (TypeError) exactly on `null`/`undefined`; an object yields the value stored under the key, or `undefined` when the key is absent; any other value reads as `undefined` |
| Js.PropAfterSet | app/api/send-email/route.ts:8 | after storing a value under a key, reading that key gives the value and reading any other key is unaffected |
| Js.OrElse | app/api/send-email/route.ts:115 | `v \|\| fallback` keeps a truthy value and gives exactly the fallback string for a falsy one, so a non-empty fallback makes the result truthy |
| Js.OrElseIdempotent | app/api/send-email/route.ts:115 | applying the same fallback twice changes nothing, and the result is truthy exactly when the value is or the fallback is non-empty |
| Text.Digits | app/api/send-email/route.ts:120 | the stripped phone number holds only ASCII digits and is no longer than the input |
| Text.DigitsSubsequence | app/api/send-email/route.ts:120 | the stripped number is a subsequence of the phone: the digits keep their order |
| Text.DigitsCounts | app/api/send-email/route.ts:120 | every digit occurs in the result exactly as often as in the phone, and no other character occurs |
| Text.DigitsIdempotent | app/api/send-email/route.ts:174 | stripping an already stripped number changes nothing |
| Text.DigitsAppend | app/api/send-email/route.ts:120 | stripping distributes over concatenation |
| Text.StripNonDigits | app/api/send-email/route.ts:120 | the scan that performs the global replacement computes exactly the stripped number |
| Text.FormattedPhoneDigits | app/api/send-email/route.ts:120 | a number written `+C (AAA) EEE-LLLL` strips to its digit groups in order |
| Text.Trim | app/order/page.tsx:118 | `trim` yields the empty string exactly when every character is JavaScript whitespace |
| Text.TrimIsInnerSlice | app/order/page.tsx:118 | the trimmed string is the slice of the input after its leading whitespace, followed only by whitespace, and neither starts nor ends with whitespace |
| Text.SecondPiece | app/api/send-email/route.ts:36 | `split(sep)[1]` is undefined exactly when the separator does not occur; otherwise it is the text after the first separator, up to the next separator or the end, and contains no separator |
| Text.SecondPieceOfDataUri | app/api/send-email/route.ts:36 | for a data URI `prefix + "base64," + payload` without commas, the second piece is the payload |
| Text.DecimalRoundTrip | app/api/send-email/route.ts:60 | reading back the digits of the rendered status gives the status |
| SendEmail.ReadOrder | app/api/send-email/route.ts:5-8 | the order's fields can be read exactly when the parsed body is neither `null` nor `undefined`, and then each of the seven fields is what reading that property of the body gives |
| SendEmail.BuildEmail | app/api/send-email/route.ts:89-198 | the email can be composed exactly when the phone is a string and every shown field prints, that is, none is, or holds in an array, an object with its own `toString` (which makes the template literal throw). Name and phone are shown as given, and the link is `https://wa.me/` plus the phone's digits. Email and location fall back to "Not provided" and border colour to "Not specified". "A4" selects the A4 label and $30, anything else the A3 label and $50. The image section appears iff `imageData` is truthy, the mailto button iff `email` is truthy |
| SendEmail.EmailFieldsNeverBlank | app/api/send-email/route.ts:115-150 | every optional field of a composed email is shown with some text; the price is $30 or $50 and agrees with the size label |
| SendEmail.WhatsAppNumber | app/api/send-email/route.ts:120 | in a composed email the link's number contains only digits, keeps the phone's digit order, and stripping it again changes nothing |
| SendEmail.FormattedPhoneLink | app/api/send-email/route.ts:174 | when the email is composed, a formatted international number becomes the link `https://wa.me/` followed by its digit groups |
| SendEmail.AttachmentsFor | app/api/send-email/route.ts:33-42 | an attachment list of one entry exists iff `imageData` is truthy; its content is the text after the `base64,` marker and its name, type and disposition are the fixed constants; a truthy non-string throws |
| SendEmail.ErrorTextOf | app/api/send-email/route.ts:81 | a rejected request body, fetch or provider body reports the text of what was thrown (an `Error`'s message, or "Unknown error" for any other value); every other fault is an engine TypeError |
| SendEmail.ThrownText | app/api/send-email/route.ts:81 | an `Error` gives exactly its message, and any other thrown value gives "Unknown error" |
| SendEmail.SuccessIffStatus200 | app/api/send-email/route.ts:9-84 | a reply has `success: true` exactly when its status is 200; every other reply is 400 or 500 |
| SendEmail.ProviderErrorMessage | app/api/send-email/route.ts:60 | the provider's status can be read back from the message "Email service error: <status>" |
| SendEmail.MapProviderResult | app/api/send-email/route.ts:54-74 | a non-ok readable answer gives a provider error carrying the status and the body. An ok answer with a non-null body gives success with `emailId` equal to the body's `id`. A rejected fetch and an unreadable body are caught failures carrying what was thrown, and an ok answer with a `null` body fails on reading `id` |
| SendEmail.Post | app/api/send-email/route.ts:3-86 | missing name or phone gives 400 with no provider call, checked before the key. A missing key gives "not configured" with no provider call. A valid, configured order is sent to the provider exactly when its email can be composed and its image, if truthy, is a string; a truthy non-string image fails at `split`. The request goes to the provider's URL with the bearer key, from the fixed sender to the fixed recipient with the fixed subject, carrying the composed email and the attachment iff `imageData` is truthy. The provider's answer then decides the reply, and success implies a call |
| SendEmail.ThrownErrorsAreCaught | app/api/send-email/route.ts:75-85 | a body that is not JSON, a `null` body, a non-string phone and a shown field that cannot be printed each end in the catch clause: status 500, `success: false`, "Failed to send email", and no provider call |
| SendEmail.ComposeFault | app/api/send-email/route.ts:111-145 | an email that cannot be composed fails on the first offending expression in template order: a non-string phone is reported only when name and email print, otherwise an unprintable field is |
| SendEmail.OwnToStringFails | app/api/send-email/route.ts:111 | a name object carrying its own `toString` makes the handler fail with no provider call, whatever the provider would answer |
| SendEmail.NumericNameDispatched | app/api/send-email/route.ts:8 | a non-zero number as the name passes the truthiness check and reaches the provider |
| SendEmail.StringOrderIsDispatched | app/api/send-email/route.ts:25-52 | an order with non-empty string name and phone, and a string or absent image, reaches the provider once a key is set exactly when its email, location, size and border colour can all be printed |
| SendEmail.AttachmentIsPayload | app/api/send-email/route.ts:36 | the dispatched attachment's content is exactly the base64 payload of the data URI |
| SendEmail.ProviderRejectionReported | app/api/send-email/route.ts:54-65 | a 422 answer is reported as status 500 with message "Email service error: 422" and the provider's body as details |
| Image.FitWithin | app/order/page.tsx:70-83 | the result fits 500 by 500 and never grows. An image that fits is unchanged. A landscape image wider than 500 gets width 500; otherwise (square included) an image taller than 500 gets height 500. The aspect ratio is exact |
| Image.FitWithinIdempotent | app/order/page.tsx:70-83 | fitting a fitted image changes nothing |
| Image.FitWithinLandscapeExample | app/order/page.tsx:73-77 | a 1000 by 400 photo becomes 500 by 200 |
| Image.FitWithinSquareExample | app/order/page.tsx:78-82 | an oversized square takes the height branch and becomes 500 by 500 |
| Image.LumaOfGray | app/order/page.tsx:94 | the weights 0.299, 0.587 and 0.114 sum to one: a gray pixel keeps its value |
| Image.LumaBounds | app/order/page.tsx:94 | the luminance lies between the smallest and the largest channel |
| Image.Grayscale | app/order/page.tsx:93-98 | the buffer keeps its length; red, green and blue of every pixel become its luminance; alpha is untouched |
| Image.ConvertPixels | app/order/page.tsx:93-98 | the page's in-place loop, stepping by four, computes exactly the transform |
| Image.GrayscaleIsGray | app/order/page.tsx:95-97 | after the transform every pixel has equal red, green and blue |
| Image.GrayscaleOfGray | app/order/page.tsx:94-97 | a gray buffer is unchanged by the transform |
| Image.GrayscaleIdempotent | app/order/page.tsx:93-98 | applying the transform twice equals applying it once |
| Image.GrayscaleInByteRange | app/order/page.tsx:93-98 | channels within 0..255 stay within 0..255, so the clamped byte array never clamps |
| OrderForm.HandleInputChange | app/order/page.tsx:43-45 | the edited field takes the new value and every other field is unchanged |
| OrderForm.HandleInputChangeLaws | app/order/page.tsx:43-45 | writing a field's own value changes nothing; of two edits to a field the last wins |
| OrderForm.ClearImage | app/order/page.tsx:107-113 | both images are cleared and the form and submission state are kept |
| OrderForm.ClearImageBlocksSubmit | app/order/page.tsx:107-126 | after clearing, the page is invalid and a submit only alerts; uploading again validates exactly as uploading without clearing |
| OrderForm.OnFileRead | app/order/page.tsx:51-53 | the uploaded image becomes the file's data URL and nothing else changes |
| OrderForm.OnImageProcessed | app/order/page.tsx:101-102 | the processed image becomes the preview's data URL and nothing else changes |
| OrderForm.ValidateForm | app/order/page.tsx:115-126 | the loop over the required fields accepts exactly the pages that are valid |
| OrderForm.ValidIffNonBlank | app/order/page.tsx:115-126 | a page is valid iff name, phone, location and border colour each hold a non-whitespace character and a photo was uploaded |
| OrderForm.ValidIgnoresEmailAndSize | app/order/page.tsx:116 | email and size never affect validity |
| OrderForm.InitialPageInvalid | app/order/page.tsx:20-31 | the fresh page is not valid |
| OrderForm.StartSubmit | app/order/page.tsx:128-149 | an invalid page raises the alert and sends nothing. A valid page is marked submitting with idle status, and posts its form with the processed image |
| OrderForm.FinishSubmit | app/order/page.tsx:151-177 | the page shows success exactly when the response is ok and its `success` is truthy, and the error otherwise. Submitting stops; the form and the images are kept |
| OrderForm.ResetAfterSuccess | app/order/page.tsx:160-171 | the reset restores the initial form (size "A4", every other field empty), clears both images and returns to idle |
| OrderForm.SuccessfulSubmitResets | app/order/page.tsx:157-171 | a successful submission followed by the reset ends on the fresh page |
| OrderForm.FailedSubmitKeepsOrder | app/order/page.tsx:172-177 | a failed submission keeps everything entered and shows the error |
| OrderForm.ValidOrderMaySendNoImage | app/order/page.tsx:122-146 | validation checks the uploaded image but the request carries the processed one, so a valid page can post no image |
| Pipeline.RequestJson | app/order/page.tsx:144-148 | the endpoint reads back exactly the page's form fields, and the processed image or `null` |
| Pipeline.ReplyAnswer | app/api/send-email/route.ts:70-84 | the page sees an ok response exactly when the reply's status is 200, with `success` as the reply states it |
| Pipeline.ClientValidationImpliesServerValidation | app/order/page.tsx:115-149 | every order the page sends passes the endpoint's 400 check |
| Pipeline.ValidPageReachesProvider | app/api/send-email/route.ts:8-52 | with a key set, every order the page sends reaches the provider, with an attachment exactly when a non-empty processed image exists |
| Pipeline.RoundTrip | app/order/page.tsx:139-174 | after a valid submission the page shows success exactly when the endpoint replied with success, that is, when the provider answered ok with a non-null body |
| Pipeline.SentButUnreadableShowsError | app/api/send-email/route.ts:54-60 | when the provider answers 200 with a body that does not parse, the email has been handed over yet the page shows the error |
| Pipeline.MissingKeyShowsError | app/api/send-email/route.ts:16-22 | without a key the page shows the error and keeps the order; the provider is not called |
| Language.InitialLanguage | components/language-provider.tsx:224-225 | the language starts as the one given, or English |
| Language.Translate | components/language-provider.tsx:227-232 | `t(key)` is the current language's entry when present and non-empty, and the key otherwise; a non-empty key never translates to the empty string |
| Language.DirectionOf | components/language-provider.tsx:237-238 | the direction is right-to-left exactly for Arabic |
| Language.RemoveDirectionTokens | components/language-provider.tsx:236 | removal leaves no `ltr`/`rtl` class and no repeated class; a class remains exactly when it was present and is not a direction class, in the order of its first occurrence |
| Language.DirectionClasses | components/language-provider.tsx:236-237 | afterwards no class repeats, the language's direction class is present and the other is not, and every other class is present exactly when it was before |
| Language.LanguageAttributes | components/language-provider.tsx:238-239 | `dir` and `lang` are set to the direction and the language code; every other attribute is unchanged |
| Language.ApplyLanguage | components/language-provider.tsx:234-240 | after the effect, no class repeats: the remaining classes keep their first-occurrence order and the language's direction class is appended after them, the other direction class is absent, every other class is present exactly when it was before, the `dir` attribute names it, `lang` is the language code, every other attribute keeps its value, and no attribute besides `dir` and `lang` is added |
| Language.AddToken | components/language-provider.tsx:237 | adding a class to a list without repeats keeps it without repeats and adds exactly that class, appended unless already present |
| Language.RemoveDirectionTokensIdempotent | components/language-provider.tsx:236 | removing the direction classes a second time changes nothing |
| Language.RepeatedClassCollapses | components/language-provider.tsx:236-237 | a class written twice ends up once, followed by the direction class |
| Language.ApplyLanguageLatestWins | components/language-provider.tsx:234-240 | running the effect for one language and then another equals running it for the second only |
| Language.ApplyLanguageIdempotent | components/language-provider.tsx:234-240 | re-running the effect for the same language changes nothing |
| Language.Toggle | components/language-toggle.tsx:14 | English switches to Arabic and Arabic to English, and the direction flips |
| Language.ToggleInvolution | components/language-toggle.tsx:14 | toggling twice gives back the original language |
| Language.ToggleLabel | components/language-toggle.tsx:18 | the label is the name of the language a click switches to: Arabic's own name when in English, "EN" otherwise |
| Language.UseLanguageAsWritten | components/language-provider.tsx:216-222 | outside a provider the hook never throws and hands out English with the blank translator; inside it hands out the provider's language and lookup |
| Language.OutsideProviderBlanksKeys | components/language-provider.tsx:219 | as written, a component outside the provider translates every key to the empty string |
| Language.UseLanguage | components/language-provider.tsx:255-261 | the hook throws exactly outside a provider, with the guard's message; inside it hands out the provider's language and a lookup in the provider's tables for that language |
| Language.UseLanguageNeverBlank | components/language-provider.tsx:255-261 | with the guard in force, no obtainable `t` turns a non-empty key into the empty string |

## Left out

- The `fetch` calls and `request.json()` / `response.json()` are inputs: a parsed value or a rejection for the request body, and an outcome value for the provider's answer.
- `process.env.RESEND_API_KEY` is a parameter of the handler.
- Console logging in the handler and the page is not modelled.
- The HTML markup and inline styles of the email are not modelled: the email is the record of values it shows. The "Submitted" timestamp (`new Date().toLocaleString()`) is left out.
- The multiplication sign and emoji literals of the email are mis-encoded in the source. They are kept as written, as opaque constants.
- FileReader, image decoding, canvas drawing and the JPEG encoding of the preview are browser APIs. They are represented only by the data URLs they deliver (`OrderForm.OnFileRead`, `OrderForm.OnImageProcessed`).
- Image.FitWithin: a fractional size assigned to the canvas is truncated by the browser; the model keeps exact reals.
- Image.Grayscale: the byte array rounds each luminance to an integer; the model keeps exact reals.
- The 5-second delay before the reset and the `submittedAt` timestamp are not modelled. The timestamp is an opaque parameter.
- The file input's MIME-type check in `handleImageUpload` and the clearing of the file input element are not modelled.
- `handleInputChange` accepts any string as a field name. The model restricts it to the six form fields, which is how the page calls it.
- The page advertises A4 at $25 (app/order/page.tsx:378), while the email says $30. Only the email's price is modelled.
- The root element's `class` attribute is taken as its list of class tokens. Splitting the attribute text on whitespace is not modelled.
- The translation tables' contents are a parameter. Keys that name inherited object properties (such as `constructor`) are not modelled.
- The page reads only `success` and `message` from the endpoint's reply (`Pipeline.ReplyAnswer`); `message` becomes the text of the error it throws. The reply's `emailId`, `details` and `error` fields are modelled in `SendEmail.Reply` only.
- The `error` text of an engine TypeError is the engine's own wording. It is modelled as an opaque case.
- app/client-home-page.tsx, app/gallery/page.tsx, app/layout.tsx and components/theme-toggle.tsx are presentational markup or provider wiring. They are not part of this model.

Two behaviours are modelled as written, and worth noting:
- The attachment is labelled `image/png` and named `.png`, while the page encodes its preview as JPEG.
- `validateForm` checks the uploaded image, but the request carries the processed one. If the conversion has not finished, a valid order posts `null` (`OrderForm.ValidOrderMaySendNoImage`).

## Findings

| source | as written | input that shows it | evidently intended | confidence | as-written member | corrected member |
|---|---|---|---|---|---|---|
| components/language-provider.tsx:216-222, 255-261 | the context is created with a default value, so `useContext` never returns `undefined` and the guard in `useLanguage` can never throw | a component rendered outside `LanguageProvider` calls `t` with any key (latent today: app/layout.tsx:25 wraps every page in `LanguageProvider`) | outside a provider the hook throws "useLanguage must be used within a LanguageProvider"; as written, it silently returns English and a `t` that maps every key to "" | not executed | Language.OutsideProviderBlanksKeys | Language.UseLanguageNeverBlank |

=== FILE: image.dfy ===
/**
 The order page's photo preprocessing (`convertToGrayscale` in
 app/order/page.tsx): the photo is scaled so that its longer side is at most
 500 pixels, then every pixel of the canvas's RGBA buffer is replaced by its
 luminance. Both steps are stated over exact reals; the canvas's truncation
 of a fractional size and the byte array's rounding are not modelled.
 */
module Image {

  /** A non-negative length or channel value. */
  type NonNeg = x: real | 0.0 <= x

  datatype Dimensions = Dimensions(width: NonNeg, height: NonNeg)

  const MaxSize: real := 500.0

  // ---------------------------------------------------------------------------
  // Resize rule
  // ---------------------------------------------------------------------------

  /**
   The target size for an image of `width` by `height`: a landscape image
   wider than 500 is scaled to width 500; otherwise (portrait or square) an
   image taller than 500 is scaled to height 500.
   */
  function FitWithin(width: NonNeg, height: NonNeg): (r: Dimensions)
    // The result fits the 500 by 500 box, and never grows the image.
    ensures r.width <= MaxSize && r.height <= MaxSize
    ensures r.width <= width && r.height <= height
    // An image that already fits is left alone.
    ensures width <= MaxSize && height <= MaxSize ==> r == Dimensions(width, height)
    // An oversized image gets its longer side clamped to exactly 500.
    ensures width > height && width > MaxSize ==> r.width == MaxSize
    ensures width <= height && height > MaxSize ==> r.height == MaxSize
    // The aspect ratio is preserved exactly.
    ensures r.width * height == r.height * width
    ensures width > 0.0 ==> r.width > 0.0
    ensures height > 0.0 ==> r.height > 0.0
  {
    if width > height then
      if width > MaxSize then Dimensions(MaxSize, Scale(height, width)) else Dimensions(width, height)
    else
      if height > MaxSize then Dimensions(Scale(width, height), MaxSize) else Dimensions(width, height)
  }

  /** The shorter side of an oversized image, scaled by the same factor as the longer one. */
  function Scale(side: NonNeg, longer: NonNeg): (r: NonNeg)
    requires longer > MaxSize && side <= longer
    ensures r <= MaxSize && r <= side
    ensures r * longer == side * MaxSize
    ensures side > 0.0 ==> r > 0.0
  {
    var r := (side * MaxSize) / longer;
    QuotientBound(side * MaxSize, longer, MaxSize);
    QuotientBound(side * MaxSize, longer, side);
    r
  }

  /** `a / b <= c` when `a <= c * b` for a positive `b`. */
  lemma QuotientBound(a: real, b: real, c: real)
    requires b > 0.0 && a <= c * b
    ensures a / b <= c
  {
    var q := a / b;
    assert q * b == a;
    assert (c - q) * b == c * b - a;
  }

  /** Fitting a fitted image again changes nothing. */
  lemma FitWithinIdempotent(width: NonNeg, height: NonNeg)
    ensures var r := FitWithin(width, height); FitWithin(r.width, r.height) == r
  {
  }

  /** The example of a 1000 by 400 photo: it becomes 500 by 200. */
  lemma FitWithinLandscapeExample()
    ensures FitWithin(1000.0, 400.0) == Dimensions(500.0, 200.0)
  {
  }

  /** A square photo takes the height branch and ends up 500 by 500. */
  lemma FitWithinSquareExample(side: NonNeg)
    requires side > MaxSize
    ensures FitWithin(side, side) == Dimensions(MaxSize, MaxSize)
  {
  }

  // ---------------------------------------------------------------------------
  // Grayscale transform
  // ---------------------------------------------------------------------------

  const RedWeight: real := 0.299
  const GreenWeight: real := 0.587
  const BlueWeight: real := 0.114

  /** The luminance of one pixel. */
  function Luma(r: real, g: real, b: real): real {
    r * RedWeight + g * GreenWeight + b * BlueWeight
  }

  /** The weights sum to one, so a gray pixel keeps its value. */
  lemma LumaOfGray(v: real)
    ensures Luma(v, v, v) == v
  {
  }

  /** Luminance lies between the smallest and the largest channel. */
  lemma LumaBounds(r: real, g: real, b: real, lo: real, hi: real)
    requires lo <= r <= hi && lo <= g <= hi && lo <= b <= hi
    ensures lo <= Luma(r, g, b) <= hi
  {
    assert Luma(r, g, b) - lo == (r - lo) * RedWeight + (g - lo) * GreenWeight + (b - lo) * BlueWeight;
    assert hi - Luma(r, g, b) == (hi - r) * RedWeight + (hi - g) * GreenWeight + (hi - b) * BlueWeight;
  }

  /** The number of pixels in an RGBA buffer. */
  function PixelCount(data: seq<real>): nat {
    |data| / 4
  }

  /** Channel `c` (0 red, 1 green, 2 blue, 3 alpha) of pixel `p`. */
  function Channel(data: seq<real>, p: nat, c: nat): real
    requires c < 4 && 4 * p + c < |data|
  {
    data[4 * p + c]
  }

  /** The luminance of pixel `p`. */
  function PixelLuma(data: seq<real>, p: nat): real
    requires 4 * p + 3 < |data|
  {
    Luma(Channel(data, p, 0), Channel(data, p, 1), Channel(data, p, 2))
  }

  /**
   The transform, one pixel at a time: red, green and blue become the
   luminance, alpha is kept.
   */
  function Grayscale(data: seq<real>): (out: seq<real>)
    requires |data| % 4 == 0
    ensures |out| == |data|
    ensures forall p :: 0 <= p < PixelCount(data) ==>
      && Channel(out, p, 0) == PixelLuma(data, p)
      && Channel(out, p, 1) == PixelLuma(data, p)
      && Channel(out, p, 2) == PixelLuma(data, p)
      && Channel(out, p, 3) == Channel(data, p, 3)
    decreases |data|
  {
    if data == [] then []
    else
      var gray := Luma(data[0], data[1], data[2]);
      var rest := Grayscale(data[4..]);
      var out := [gray, gray, gray, data[3]] + rest;
      assert forall p :: 1 <= p < PixelCount(data) ==>
        PixelLuma(data, p) == PixelLuma(data[4..], p - 1) && Channel(data, p, 3) == Channel(data[4..], p - 1, 3);
      assert forall p, c :: 1 <= p < PixelCount(data) && c < 4 ==> Channel(out, p, c) == Channel(rest, p - 1, c);
      out
  }

  /** Every pixel of the buffer has equal red, green and blue channels. */
  predicate IsGray(data: seq<real>)
    requires |data| % 4 == 0
  {
    forall p :: 0 <= p < PixelCount(data) ==>
      Channel(data, p, 1) == Channel(data, p, 0) && Channel(data, p, 2) == Channel(data, p, 0)
  }

  /** The transform's output is gray. */
  lemma GrayscaleIsGray(data: seq<real>)
    requires |data| % 4 == 0
    ensures IsGray(Grayscale(data))
  {
    var out := Grayscale(data);
    forall p | 0 <= p < PixelCount(data)
      ensures Channel(out, p, 1) == Channel(out, p, 0) && Channel(out, p, 2) == Channel(out, p, 0)
    {
    }
  }

  /** A gray buffer is left unchanged. */
  lemma GrayscaleOfGray(data: seq<real>)
    requires |data| % 4 == 0
    requires IsGray(data)
    ensures Grayscale(data) == data
  {
    var out := Grayscale(data);
    forall i | 0 <= i < |data|
      ensures out[i] == data[i]
    {
      var p := i / 4;
      LumaOfGray(Channel(data, p, 0));
      assert out[i] == Channel(out, p, i % 4) && data[i] == Channel(data, p, i % 4);
    }
  }

  /** Applying the transform twice gives the same buffer as applying it once. */
  lemma GrayscaleIdempotent(data: seq<real>)
    requires |data| % 4 == 0
    ensures Grayscale(Grayscale(data)) == Grayscale(data)
  {
    GrayscaleIsGray(data);
    GrayscaleOfGray(Grayscale(data));
  }

  /** Channels in the byte range stay in the byte range: the clamped array never clamps. */
  lemma GrayscaleInByteRange(data: seq<real>)
    requires |data| % 4 == 0
    requires forall i :: 0 <= i < |data| ==> 0.0 <= data[i] <= 255.0
    ensures forall i :: 0 <= i < |data| ==> 0.0 <= Grayscale(data)[i] <= 255.0
  {
    var out := Grayscale(data);
    forall i | 0 <= i < |data|
      ensures 0.0 <= out[i] <= 255.0
    {
      var p := i / 4;
      LumaBounds(Channel(data, p, 0), Channel(data, p, 1), Channel(data, p, 2), 0.0, 255.0);
      assert out[i] == Channel(out, p, i % 4) && data[i] == Channel(data, p, i % 4);
    }
  }

  /**
   The page's in-place loop: stepping four entries at a time, it overwrites
   the red, green and blue entries of each pixel with its luminance.
   */
  method ConvertPixels(data: seq<real>) returns (out: seq<real>)
    requires |data| % 4 == 0
    ensures out == Grayscale(data)
  {
    out := data;
    var i := 0;
    while i < |out|
      invariant |out| == |data|
      invariant 0 <= i <= |data| && i % 4 == 0
      invariant forall k :: i <= k < |data| ==> out[k] == data[k]
      invariant forall k :: 0 <= k < i ==> out[k] == Grayscale(data)[k]
    {
      var gray := out[i] * RedWeight + out[i + 1] * GreenWeight + out[i + 2] * BlueWeight;
      ghost var p := i / 4;
      assert 4 * p == i;
      assert gray == PixelLuma(data, p);
      out := out[i := gray];
      out := out[i + 1 := gray];
      out := out[i + 2 := gray];
      assert out[i + 3] == Channel(data, p, 3);
      i := i + 4;
    }
  }
}

=== FILE: js.dfy ===
/**
 The JavaScript values the site's handlers observe: parsed JSON bodies, the
 `undefined` that an absent property reads as, and the truthiness test that
 `!x` and `x || y` apply to them.
 */
module Js {

  /** A value that may be absent (`null` in the page's React state). */
  datatype Option<+T> = None | Some(value: T)

  /** A JSON value after `JSON.parse`, plus `undefined` for an absent property. */
  datatype Value =
    | Undefined
    | Null
    | Bool(b: bool)
    | Num(n: real)
    | Str(s: string)
    | Arr(items: seq<Value>)
    | Obj(props: map<string, Value>)

  /** JavaScript truthiness: `false`, `0`, `""`, `null` and `undefined` are falsy. */
  predicate Truthy(v: Value) {
    match v
    case Undefined => false
    case Null => false
    case Bool(b) => b
    case Num(n) => n != 0.0
    case Str(s) => s != ""
    case Arr(_) => true
    case Obj(_) => true
  }

  /**
   Reading property `key` of `v` (`v.key`). `None` stands for the TypeError
   thrown when `v` is `null` or `undefined`. Only own properties of JSON
   objects are modelled: the keys read by this site name no prototype member.
   */
  function Prop(v: Value, key: string): (r: Option<Value>)
    ensures r.None? <==> v.Null? || v.Undefined?
    ensures v.Obj? && key in v.props ==> r == Some(v.props[key])
    ensures v.Obj? && key !in v.props ==> r == Some(Undefined)
    ensures !v.Obj? && r.Some? ==> r.value == Undefined
  {
    match v
    case Undefined => None
    case Null => None
    case Obj(props) => Some(if key in props then props[key] else Undefined)
    case _ => Some(Undefined)
  }

  /** `v || fallback` for a string fallback. */
  function OrElse(v: Value, fallback: string): (r: Value)
    ensures Truthy(v) ==> r == v
    ensures !Truthy(v) ==> r == Str(fallback)
    ensures fallback != "" ==> Truthy(r)
  {
    if Truthy(v) then v else Str(fallback)
  }

  /** A property set on an object reads back, and setting it leaves every other property's read unchanged. */
  lemma PropAfterSet(props: map<string, Value>, key: string, x: Value, other: string)
    requires other != key
    ensures Prop(Obj(props[key := x]), key) == Some(x)
    ensures Prop(Obj(props[key := x]), other) == Prop(Obj(props), other)
  {
  }

  /** Falling back twice is falling back once, and a truthy fallback result is never replaced again. */
  lemma OrElseIdempotent(v: Value, fallback: string)
    ensures OrElse(OrElse(v, fallback), fallback) == OrElse(v, fallback)
    ensures Truthy(OrElse(v, fallback)) <==> Truthy(v) || fallback != ""
  {
  }

  /**
   Interpolating `v` into a template literal succeeds. A JSON object with an
   own `toString` property fails: that property is not callable, and the
   inherited `valueOf` returns the object itself, so the conversion to a
   string throws a TypeError. Any other object prints as `[object Object]`,
   and an array prints by joining its items, so it fails when an item does.
   */
  predicate Printable(v: Value) {
    match v
    case Obj(props) => "toString" !in props
    case Arr(items) => forall i :: 0 <= i < |items| ==> Printable(items[i])
    case _ => true
  }
}

=== FILE: language.dfy ===
/**
 Language selection (components/language-provider.tsx and
 components/language-toggle.tsx): translation lookup with fallback to the
 key, the effect that writes the text direction and language onto the root
 element, and the English/Arabic toggle button.
 */
module Language {
  import opened Js

  datatype Lang = En | Ar

  /** The language code used as the `lang` attribute. */
  function Code(l: Lang): string {
    match l
    case En => "en"
    case Ar => "ar"
  }

  /** The provider's starting language: the one it is given, English otherwise. */
  function InitialLanguage(defaultLanguage: Option<Lang>): (l: Lang)
    ensures defaultLanguage.Some? ==> l == defaultLanguage.value
    ensures defaultLanguage.None? ==> l == En
  {
    match defaultLanguage
    case Some(d) => d
    case None => En
  }

  // ---------------------------------------------------------------------------
  // Translation lookup
  // ---------------------------------------------------------------------------

  /** The string tables, one per language; their entries are not part of this model. */
  datatype Tables = Tables(en: map<string, string>, ar: map<string, string>)

  function TableFor(tables: Tables, l: Lang): map<string, string> {
    match l
    case En => tables.en
    case Ar => tables.ar
  }

  /** `t(key)`: the current language's entry, or the key itself when the entry is missing or empty. */
  function Translate(tables: Tables, l: Lang, key: string): (r: string)
    ensures var table := TableFor(tables, l);
      && (key in table && table[key] != "" ==> r == table[key])
      && (r != key ==> key in table && table[key] == r)
      && (key !in table ==> r == key)
    ensures key != "" ==> r != ""
  {
    var table := TableFor(tables, l);
    if key in table && table[key] != "" then table[key] else key
  }

  // ---------------------------------------------------------------------------
  // Text direction on the root element
  // ---------------------------------------------------------------------------

  datatype Direction = Ltr | Rtl

  function DirectionOf(l: Lang): (d: Direction)
    ensures d == Rtl <==> l == Ar
  {
    if l == Ar then Rtl else Ltr
  }

  function Token(d: Direction): string {
    match d
    case Ltr => "ltr"
    case Rtl => "rtl"
  }

  /**
   The root element's class tokens, in attribute order, and its attributes.
   The class tokens may repeat: that is how the `class` attribute was written.
   */
  datatype Root = Root(classes: seq<string>, attributes: map<string, string>)

  predicate IsDirectionToken(c: string) {
    c == "ltr" || c == "rtl"
  }

  predicate NoDuplicates(s: seq<string>) {
    forall i, j :: 0 <= i < j < |s| ==> s[i] != s[j]
  }

  /** The index of the first occurrence of `x` in `s`. */
  function FirstIndex(s: seq<string>, x: string): (i: nat)
    requires x in s
    ensures i < |s| && s[i] == x
    ensures forall k :: 0 <= k < i ==> s[k] != x
  {
    if s[0] == x then 0 else 1 + FirstIndex(s[1..], x)
  }

  /** `r` lists its tokens in the order in which they first occur in `s`. */
  predicate InFirstOccurrenceOrder(r: seq<string>, s: seq<string>)
    requires forall i :: 0 <= i < |r| ==> r[i] in s
  {
    forall i, j :: 0 <= i < j < |r| ==> FirstIndex(s, r[i]) < FirstIndex(s, r[j])
  }

  /**
   `classList.remove("ltr", "rtl")`. A class list is an ordered set of
   tokens: the attribute is parsed with repeats dropped (the first
   occurrence wins), both tokens are removed, and the attribute is written
   back from what remains.
   */
  function RemoveDirectionTokens(classes: seq<string>): (r: seq<string>)
    ensures NoDuplicates(r)
    ensures forall c :: c in r <==> c in classes && !IsDirectionToken(c)
    ensures InFirstOccurrenceOrder(r, classes)
    decreases |classes|
  {
    if classes == [] then []
    else
      var init := classes[..|classes| - 1];
      var last := classes[|classes| - 1];
      var rest := RemoveDirectionTokens(init);
      assert classes == init + [last];
      FirstIndexKept(init, last, rest);
      if IsDirectionToken(last) || last in rest then rest
      else
        FirstIndexOfNew(init, last);
        rest + [last]
  }

  /** Appending a token does not move the first occurrence of a token already present. */
  lemma FirstIndexKept(init: seq<string>, last: string, rest: seq<string>)
    requires forall i :: 0 <= i < |rest| ==> rest[i] in init
    ensures forall i :: 0 <= i < |rest| ==> FirstIndex(init + [last], rest[i]) == FirstIndex(init, rest[i])
  {
    forall i | 0 <= i < |rest|
      ensures FirstIndex(init + [last], rest[i]) == FirstIndex(init, rest[i])
    {
      var a := FirstIndex(init + [last], rest[i]);
      var b := FirstIndex(init, rest[i]);
      assert (init + [last])[b] == rest[i];
      if a < |init| {
        assert init[a] == (init + [last])[a];
      }
    }
  }

  /** A token that is new at the end first occurs there. */
  lemma FirstIndexOfNew(init: seq<string>, last: string)
    requires last !in init
    ensures FirstIndex(init + [last], last) == |init|
  {
    assert forall k :: 0 <= k < |init| ==> (init + [last])[k] == init[k];
  }

  /** `classList.add(token)` on a list without repeats: appended unless already present. */
  function AddToken(classes: seq<string>, token: string): (r: seq<string>)
    requires NoDuplicates(classes)
    ensures NoDuplicates(r)
    ensures forall c :: c in r <==> c in classes || c == token
    ensures token in classes ==> r == classes
    ensures token !in classes ==> r == classes + [token]
  {
    if token in classes then classes else classes + [token]
  }

  /** Removing both direction classes, then adding the language's own. */
  function DirectionClasses(classes: seq<string>, l: Lang): (r: seq<string>)
    // No token repeats; the language's direction class is present, the other one is not.
    ensures NoDuplicates(r)
    ensures Token(DirectionOf(l)) in r && Token(DirectionOf(Toggle(l))) !in r
    // Every other class of the original list is kept, in the order of its first
    // occurrence, and nothing else is added; the direction class comes last.
    ensures forall c :: !IsDirectionToken(c) ==> (c in r <==> c in classes)
    ensures r == RemoveDirectionTokens(classes) + [Token(DirectionOf(l))]
  {
    var token := Token(DirectionOf(l));
    var kept := RemoveDirectionTokens(classes);
    assert token !in kept;
    AddToken(kept, token)
  }

  /** Setting the `dir` and `lang` attributes. */
  function LanguageAttributes(attributes: map<string, string>, l: Lang): (r: map<string, string>)
    ensures "dir" in r && r["dir"] == Token(DirectionOf(l))
    ensures "lang" in r && r["lang"] == Code(l)
    ensures r.Keys == attributes.Keys + {"dir", "lang"}
    ensures forall k :: k in attributes && k != "dir" && k != "lang" ==> r[k] == attributes[k]
  {
    attributes["dir" := Token(DirectionOf(l))]["lang" := Code(l)]
  }

  /** The effect run whenever the language changes. */
  function ApplyLanguage(root: Root, l: Lang): (r: Root)
    // One direction class is present, and the dir attribute names it.
    ensures NoDuplicates(r.classes)
    ensures "dir" in r.attributes && r.attributes["dir"] in r.classes
    ensures r.attributes["dir"] == Token(DirectionOf(l))
    ensures Token(DirectionOf(Toggle(l))) !in r.classes
    ensures "lang" in r.attributes && r.attributes["lang"] == Code(l)
    // Nothing else on the root element changes, apart from repeated class tokens collapsing.
    ensures forall c :: !IsDirectionToken(c) ==> (c in r.classes <==> c in root.classes)
    ensures forall k :: k in root.attributes && k != "dir" && k != "lang" ==> k in r.attributes && r.attributes[k] == root.attributes[k]
    // The direction class is appended after the remaining classes, and no attribute besides `dir` and `lang` appears.
    ensures r.classes == RemoveDirectionTokens(root.classes) + [Token(DirectionOf(l))]
    ensures r.attributes.Keys == root.attributes.Keys + {"dir", "lang"}
  {
    Root(DirectionClasses(root.classes, l), LanguageAttributes(root.attributes, l))
  }

  /** A list without repeats or direction tokens is left as it is. */
  lemma {:induction false} RemoveDirectionTokensOfClean(classes: seq<string>)
    requires NoDuplicates(classes)
    requires forall i :: 0 <= i < |classes| ==> !IsDirectionToken(classes[i])
    ensures RemoveDirectionTokens(classes) == classes
    decreases |classes|
  {
    if classes != [] {
      var init := classes[..|classes| - 1];
      RemoveDirectionTokensOfClean(init);
      assert classes[|classes| - 1] !in init;
      assert init + [classes[|classes| - 1]] == classes;
    }
  }

  /** Removing the direction tokens twice removes nothing more. */
  lemma RemoveDirectionTokensIdempotent(classes: seq<string>)
    ensures RemoveDirectionTokens(RemoveDirectionTokens(classes)) == RemoveDirectionTokens(classes)
  {
    RemoveDirectionTokensOfClean(RemoveDirectionTokens(classes));
  }

  /** Only the latest language matters: running the effect again overrides the earlier one. */
  lemma ApplyLanguageLatestWins(root: Root, first: Lang, second: Lang)
    ensures ApplyLanguage(ApplyLanguage(root, first), second) == ApplyLanguage(root, second)
  {
    ClassesLatestWins(root.classes, first, second);
    AttributesLatestWins(root.attributes, first, second);
  }

  lemma ClassesLatestWins(classes: seq<string>, first: Lang, second: Lang)
    ensures DirectionClasses(DirectionClasses(classes, first), second) == DirectionClasses(classes, second)
  {
    RemoveThenAdd(classes, Token(DirectionOf(first)));
  }

  lemma AttributesLatestWins(attributes: map<string, string>, first: Lang, second: Lang)
    ensures LanguageAttributes(LanguageAttributes(attributes, first), second) == LanguageAttributes(attributes, second)
  {
  }

  /** Removing the direction tokens again undoes an added direction token. */
  lemma RemoveThenAdd(classes: seq<string>, token: string)
    requires IsDirectionToken(token)
    ensures RemoveDirectionTokens(RemoveDirectionTokens(classes) + [token]) == RemoveDirectionTokens(classes)
  {
    var kept := RemoveDirectionTokens(classes);
    assert (kept + [token])[..|kept|] == kept;
    RemoveDirectionTokensIdempotent(classes);
  }

  /** Re-running the effect for the same language changes nothing. */
  lemma ApplyLanguageIdempotent(root: Root, l: Lang)
    ensures ApplyLanguage(ApplyLanguage(root, l), l) == ApplyLanguage(root, l)
  {
    ApplyLanguageLatestWins(root, l, l);
  }

  /** Repeated class tokens collapse: a doubled class ends up once. */
  lemma RepeatedClassCollapses(c: string, l: Lang)
    requires !IsDirectionToken(c)
    ensures DirectionClasses([c, c], l) == [c, Token(DirectionOf(l))]
  {
    assert [c, c][..1] == [c];
    assert RemoveDirectionTokens([c]) == [c] by {
      assert [c][..0] == [];
    }
  }

  // ---------------------------------------------------------------------------
  // The toggle button
  // ---------------------------------------------------------------------------

  /** The toggle: English switches to Arabic and Arabic back to English. */
  function Toggle(l: Lang): (r: Lang)
    ensures r != l
    ensures l == En <==> r == Ar
    ensures DirectionOf(r) != DirectionOf(l)
  {
    if l == En then Ar else En
  }

  /** Toggling twice gives back the original language. */
  lemma ToggleInvolution(l: Lang)
    ensures Toggle(Toggle(l)) == l
  {
  }

  /** The name each language is offered under on the button. */
  function Autonym(l: Lang): string {
    match l
    case En => "EN"
    case Ar => "\U{0639}\U{0631}\U{0628}\U{064A}"
  }

  /** The button's label names the language a click switches to. */
  function ToggleLabel(l: Lang): (caption: string)
    ensures caption == Autonym(Toggle(l))
  {
    if l == En then "\U{0639}\U{0631}\U{0628}\U{064A}" else "EN"
  }

  // ---------------------------------------------------------------------------
  // The context hook
  // ---------------------------------------------------------------------------

  /** The function a component receives as `t`: a lookup, or the default context's function that returns the empty string. */
  datatype Translator = Lookup(tables: Tables, language: Lang) | Blank

  function Apply(t: Translator, key: string): string {
    match t
    case Lookup(tables, l) => Translate(tables, l, key)
    case Blank => ""
  }

  /** What a component sees: the provider's value, or none when it is rendered outside one. */
  datatype Context = Provided(tables: Tables, language: Lang) | OutsideProvider

  /** The hook's result: the state or the error it throws. */
  datatype HookResult = State(language: Lang, t: Translator) | Throws(message: string)

  const OutsideMessage := "useLanguage must be used within a LanguageProvider"

  /**
   `useLanguage` as written: outside a provider `useContext` returns the
   default value given to `createContext`, never `undefined`, so the guard
   never throws and `t` is the blank function.
   */
  function UseLanguageAsWritten(ctx: Context): (r: HookResult)
    ensures r.State?
    ensures ctx.OutsideProvider? ==> r == State(En, Blank)
    ensures ctx.Provided? ==> r == State(ctx.language, Lookup(ctx.tables, ctx.language))
  {
    match ctx
    case Provided(tables, l) => State(l, Lookup(tables, l))
    case OutsideProvider => State(En, Blank)
  }

  /** As written, a component outside the provider translates every key to the empty string. */
  lemma OutsideProviderBlanksKeys(key: string)
    ensures var r := UseLanguageAsWritten(OutsideProvider);
      r.State? && Apply(r.t, key) == ""
  {
  }

  /** `useLanguage` as its guard intends: outside a provider it throws. */
  function UseLanguage(ctx: Context): (r: HookResult)
    ensures r.Throws? <==> ctx.OutsideProvider?
    ensures r.Throws? ==> r.message == OutsideMessage
    ensures r.State? ==> r.t.Lookup? && r.t.language == r.language
    ensures ctx.Provided? ==> r == State(ctx.language, Lookup(ctx.tables, ctx.language))
  {
    match ctx
    case Provided(tables, l) => State(l, Lookup(tables, l))
    case OutsideProvider => Throws(OutsideMessage)
  }

  /** With the guard in force, every `t` a component can obtain keeps the key fallback. */
  lemma UseLanguageNeverBlank(ctx: Context, key: string)
    requires key != ""
    requires UseLanguage(ctx).State?
    ensures Apply(UseLanguage(ctx).t, key) != ""
  {
  }
}

=== FILE: order_form.dfy ===
/**
 The order page's state and its event handlers (app/order/page.tsx): field
 edits, clearing the photo, the client-side validation, and the submit
 sequence that sends the order, records the outcome and, after a success,
 resets the page.
 */
module OrderForm {
  import opened Js
  import opened Text

  datatype Field = Name | Email | Phone | Location | Size | BorderColor

  datatype Form = Form(
    name: string, email: string, phone: string, location: string,
    size: string, borderColor: string)

  function Get(form: Form, f: Field): string {
    match f
    case Name => form.name
    case Email => form.email
    case Phone => form.phone
    case Location => form.location
    case Size => form.size
    case BorderColor => form.borderColor
  }

  /** The form a fresh page (and a reset) starts from. */
  const InitialForm := Form("", "", "", "", "A4", "")

  /** `handleInputChange`: the edited field takes the new value. */
  function HandleInputChange(form: Form, f: Field, value: string): (r: Form)
    ensures Get(r, f) == value
    ensures forall g :: g != f ==> Get(r, g) == Get(form, g)
  {
    match f
    case Name => form.(name := value)
    case Email => form.(email := value)
    case Phone => form.(phone := value)
    case Location => form.(location := value)
    case Size => form.(size := value)
    case BorderColor => form.(borderColor := value)
  }

  /** Changing a field to the value it already has changes nothing; the last edit of a field wins. */
  lemma HandleInputChangeLaws(form: Form, f: Field, v: string, w: string)
    ensures HandleInputChange(form, f, Get(form, f)) == form
    ensures HandleInputChange(HandleInputChange(form, f, v), f, w) == HandleInputChange(form, f, w)
  {
  }

  datatype SubmitStatus = Idle | Succeeded | Errored

  /** The page's React state. */
  datatype Page = Page(
    form: Form,
    uploadedImage: Option<string>,
    processedImage: Option<string>,
    isSubmitting: bool,
    status: SubmitStatus)

  const InitialPage := Page(InitialForm, None, None, false, Idle)

  /** `clearImage()`: both images go, nothing else changes. */
  function ClearImage(p: Page): (r: Page)
    ensures r.uploadedImage.None? && r.processedImage.None?
    ensures r.form == p.form && r.isSubmitting == p.isSubmitting && r.status == p.status
  {
    p.(uploadedImage := None, processedImage := None)
  }

  /**
   Clearing the photo blocks submission until a new one is uploaded, and an
   upload after clearing validates exactly as it would have without it.
   */
  lemma ClearImageBlocksSubmit(p: Page, now: string, dataUrl: string)
    ensures !IsValid(ClearImage(p)) && StartSubmit(ClearImage(p), now).Alerted?
    ensures IsValid(OnFileRead(ClearImage(p), dataUrl)) <==> IsValid(OnFileRead(p, dataUrl))
  {
  }

  /** The file reader has produced the uploaded photo's data URL. */
  function OnFileRead(p: Page, dataUrl: string): (r: Page)
    ensures r.uploadedImage == Some(dataUrl)
    ensures r == p.(uploadedImage := r.uploadedImage)
  {
    p.(uploadedImage := Some(dataUrl))
  }

  /** The grayscale conversion has produced the preview's data URL. */
  function OnImageProcessed(p: Page, dataUrl: string): (r: Page)
    ensures r.processedImage == Some(dataUrl)
    ensures r == p.(processedImage := r.processedImage)
  {
    p.(processedImage := Some(dataUrl))
  }

  // ---------------------------------------------------------------------------
  // Validation
  // ---------------------------------------------------------------------------

  const RequiredFields: seq<Field> := [Name, Phone, Location, BorderColor]

  /** The field holds something other than whitespace. */
  predicate Filled(form: Form, f: Field) {
    Trim(Get(form, f)) != ""
  }

  /** An uploaded image is present and non-empty (truthy). */
  predicate HasUpload(p: Page) {
    p.uploadedImage.Some? && p.uploadedImage.value != ""
  }

  /** What `validateForm` accepts. */
  predicate IsValid(p: Page) {
    (forall k :: 0 <= k < |RequiredFields| ==> Filled(p.form, RequiredFields[k])) && HasUpload(p)
  }

  /** `validateForm()`: the loop over the required fields, then the image check. */
  method ValidateForm(p: Page) returns (ok: bool)
    ensures ok <==> IsValid(p)
  {
    var i := 0;
    while i < |RequiredFields|
      invariant 0 <= i <= |RequiredFields|
      invariant forall k :: 0 <= k < i ==> Filled(p.form, RequiredFields[k])
    {
      var field := RequiredFields[i];
      if Trim(Get(p.form, field)) == "" {
        assert !Filled(p.form, field);
        return false;
      }
      assert Filled(p.form, field);
      i := i + 1;
    }
    if p.uploadedImage.None? || p.uploadedImage.value == "" {
      return false;
    }
    return true;
  }

  /**
   Validation in terms of the characters: each of name, phone, location and
   border colour holds a non-whitespace character, and a photo was uploaded.
   */
  lemma ValidIffNonBlank(p: Page)
    ensures IsValid(p) <==>
      && !AllSpaces(p.form.name) && !AllSpaces(p.form.phone)
      && !AllSpaces(p.form.location) && !AllSpaces(p.form.borderColor)
      && HasUpload(p)
  {
    assert IsValid(p) <==>
      Filled(p.form, Name) && Filled(p.form, Phone) && Filled(p.form, Location) && Filled(p.form, BorderColor) && HasUpload(p)
    by {
      assert RequiredFields[0] == Name && RequiredFields[1] == Phone;
      assert RequiredFields[2] == Location && RequiredFields[3] == BorderColor;
      assert |RequiredFields| == 4;
    }
  }

  /** Email and size are never checked. */
  lemma ValidIgnoresEmailAndSize(p: Page, email: string, size: string)
    ensures IsValid(p) <==> IsValid(p.(form := p.form.(email := email, size := size)))
  {
    var q := p.(form := p.form.(email := email, size := size));
    assert forall k :: 0 <= k < |RequiredFields| ==> Get(p.form, RequiredFields[k]) == Get(q.form, RequiredFields[k]);
  }

  /** A reset page is not valid: the photo has to be uploaded again. */
  lemma InitialPageInvalid()
    ensures !IsValid(InitialPage)
  {
  }

  // ---------------------------------------------------------------------------
  // Submission
  // ---------------------------------------------------------------------------

  /** The JSON body the page posts: the form, the processed image and a timestamp. */
  datatype OrderRequest = OrderRequest(form: Form, imageData: Option<string>, submittedAt: string)

  /** The first half of `submitOrder`, up to the awaited `fetch`. */
  datatype SubmitStart = Alerted | Sending(page: Page, request: OrderRequest)

  function StartSubmit(p: Page, now: string): (r: SubmitStart)
    // An invalid form is rejected with an alert and sends nothing.
    ensures r.Alerted? <==> !IsValid(p)
    // Otherwise the page shows it is submitting, and posts the form with the processed image.
    ensures r.Sending? ==>
      && r.page == p.(isSubmitting := true, status := Idle)
      && r.request.form == p.form
      && r.request.imageData == p.processedImage
  {
    if !IsValid(p) then Alerted
    else Sending(p.(isSubmitting := true, status := Idle), OrderRequest(p.form, p.processedImage, now))
  }

  /** The answer to the page's `fetch`: a network failure, or a response with a status and a body. */
  datatype ServerAnswer = NetworkFailure | Responded(ok: bool, body: AnswerBody)

  datatype AnswerBody = NotJson | JsonBody(value: Value)

  /** The response is ok and its `success` is truthy; reading `success` of a null body throws, which counts as a failure. */
  predicate Accepted(a: ServerAnswer) {
    && a.Responded? && a.ok && a.body.JsonBody?
    && var success := Prop(a.body.value, "success");
    success.Some? && Truthy(success.value)
  }

  /** The second half of `submitOrder`: record the outcome and stop submitting. */
  function FinishSubmit(p: Page, a: ServerAnswer): (r: Page)
    ensures !r.isSubmitting
    ensures r.status == Succeeded <==> Accepted(a)
    ensures r.status == Errored <==> !Accepted(a)
    // The form and the images are kept; a failed order can be retried as it is.
    ensures r.form == p.form && r.uploadedImage == p.uploadedImage && r.processedImage == p.processedImage
  {
    p.(isSubmitting := false, status := if Accepted(a) then Succeeded else Errored)
  }

  /** The timer callback run after a success: the initial form, no images, idle. */
  function ResetAfterSuccess(p: Page): (r: Page)
    ensures r.form == InitialForm && r.form.size == "A4"
    ensures forall f :: f != Size ==> Get(r.form, f) == ""
    ensures r.uploadedImage.None? && r.processedImage.None?
    ensures r.status == Idle && r.isSubmitting == p.isSubmitting
  {
    ClearImage(p.(form := InitialForm)).(status := Idle)
  }

  /** A successful round trip ends on the page a visitor first sees. */
  lemma SuccessfulSubmitResets(p: Page, now: string, a: ServerAnswer)
    requires StartSubmit(p, now).Sending?
    requires Accepted(a)
    ensures ResetAfterSuccess(FinishSubmit(StartSubmit(p, now).page, a)) == InitialPage
  {
  }

  /** A failed round trip keeps everything the visitor entered and shows the error. */
  lemma FailedSubmitKeepsOrder(p: Page, now: string, a: ServerAnswer)
    requires StartSubmit(p, now).Sending?
    requires !Accepted(a)
    ensures FinishSubmit(StartSubmit(p, now).page, a) == p.(isSubmitting := false, status := Errored)
  {
  }

  /**
   Validation looks at the uploaded photo but the request carries the
   processed one: a page whose conversion has not produced a preview passes
   validation and posts no image.
   */
  lemma ValidOrderMaySendNoImage(p: Page, now: string)
    requires p == Page(Form("Ada", "", "1", "Town", "A4", "gold"), Some("data:,x"), None, false, Idle)
    ensures IsValid(p) && StartSubmit(p, now).Sending? && StartSubmit(p, now).request.imageData.None?
  {
    assert !IsJsSpace(p.form.name[0]) && !IsJsSpace(p.form.phone[0]);
    assert !IsJsSpace(p.form.location[0]) && !IsJsSpace(p.form.borderColor[0]);
    ValidIffNonBlank(p);
  }
}

=== FILE: pipeline.dfy ===
/**
 The order page and the submission endpoint together: the page's request as
 the endpoint parses it, the endpoint's reply as the page reads it, and what
 the round trip guarantees.
 */
module Pipeline {
  import opened Js
  import opened Text
  import OrderForm
  import SendEmail

  /** The page's request body (the form fields, the image and the timestamp) as the endpoint parses it. */
  function RequestJson(req: OrderForm.OrderRequest): (v: Value)
    ensures v.Obj?
    ensures SendEmail.ReadOrder(v) == Some(SendEmail.Order(
      Str(req.form.name), Str(req.form.email), Str(req.form.phone), Str(req.form.location),
      Str(req.form.size), Str(req.form.borderColor), ImageValue(req.imageData)))
  {
    var f := req.form;
    Obj(map[
      "name" := Str(f.name), "email" := Str(f.email), "phone" := Str(f.phone),
      "location" := Str(f.location), "size" := Str(f.size), "borderColor" := Str(f.borderColor),
      "imageData" := ImageValue(req.imageData), "submittedAt" := Str(req.submittedAt)])
  }

  /** The page's image state as a JSON value: the data URL, or `null` when there is none. */
  function ImageValue(image: Option<string>): (v: Value)
    ensures image.Some? <==> v.Str?
    ensures image.Some? ==> v.s == image.value
    ensures image.None? ==> v.Null?
  {
    match image
    case Some(d) => Str(d)
    case None => Null
  }

  /**
   The endpoint's reply as the page receives it: `ok` from the HTTP status,
   and a JSON body with `success` and `message` (the only fields the page
   reads).
   */
  function ReplyAnswer(reply: SendEmail.Reply): (a: OrderForm.ServerAnswer)
    ensures a.Responded? && a.body.JsonBody?
    ensures a.ok <==> SendEmail.HttpStatus(reply) == 200
    ensures Prop(a.body.value, "success") == Some(Bool(SendEmail.Success(reply)))
  {
    OrderForm.Responded(
      SendEmail.IsOkStatus(SendEmail.HttpStatus(reply)),
      OrderForm.JsonBody(Obj(map[
        "success" := Bool(SendEmail.Success(reply)),
        "message" := Str(SendEmail.Message(reply))])))
  }

  /** A string with a non-whitespace character is not empty, so it is truthy. */
  lemma FilledIsTruthy(form: OrderForm.Form, f: OrderForm.Field)
    requires OrderForm.Filled(form, f)
    ensures Truthy(Str(OrderForm.Get(form, f)))
  {
    assert OrderForm.Get(form, f) != "";
  }

  /** Whatever the page lets through also passes the endpoint's own check. */
  lemma ClientValidationImpliesServerValidation(p: OrderForm.Page, now: string)
    requires OrderForm.IsValid(p)
    ensures var start := OrderForm.StartSubmit(p, now);
      && start.Sending?
      && SendEmail.ReadOrder(RequestJson(start.request)).Some?
      && SendEmail.HasRequiredFields(SendEmail.ReadOrder(RequestJson(start.request)).value)
  {
    OrderForm.ValidIffNonBlank(p);
    assert OrderForm.Filled(p.form, OrderForm.Name) && OrderForm.Filled(p.form, OrderForm.Phone);
    FilledIsTruthy(p.form, OrderForm.Name);
    FilledIsTruthy(p.form, OrderForm.Phone);
  }

  /**
   A valid page, with the key configured, always reaches the provider, and
   the email carries an attachment exactly when the page holds a non-empty
   processed image.
   */
  lemma ValidPageReachesProvider(p: OrderForm.Page, now: string, key: string, provider: SendEmail.ProviderResult)
    requires OrderForm.IsValid(p) && key != ""
    ensures var req := OrderForm.StartSubmit(p, now).request;
      var h := SendEmail.Post(SendEmail.Json(RequestJson(req)), Some(key), provider);
      && h.dispatched.Some?
      && (h.dispatched.value.payload.attachments.Some? <==> p.processedImage.Some? && p.processedImage.value != "")
  {
    ClientValidationImpliesServerValidation(p, now);
  }

  /**
   End to end: after a valid submission the page shows success exactly when
   the provider accepted the email and answered with a readable, non-null
   body.
   */
  lemma RoundTrip(p: OrderForm.Page, now: string, key: string, provider: SendEmail.ProviderResult)
    requires OrderForm.IsValid(p) && key != ""
    ensures var start := OrderForm.StartSubmit(p, now);
      var h := SendEmail.Post(SendEmail.Json(RequestJson(start.request)), Some(key), provider);
      var after := OrderForm.FinishSubmit(start.page, ReplyAnswer(h.reply));
      && (after.status == OrderForm.Succeeded <==> h.reply.Sent?)
      && (after.status == OrderForm.Succeeded <==>
            provider.Answered? && SendEmail.IsOkStatus(provider.status) && provider.body.Readable?
            && !provider.body.json.Null? && !provider.body.json.Undefined?)
  {
    ValidPageReachesProvider(p, now, key, provider);
  }

  /**
   The email can be sent and the page still show the error: the provider
   answered 200, but its body did not parse as JSON.
   */
  lemma SentButUnreadableShowsError(p: OrderForm.Page, now: string, key: string, thrown: SendEmail.Thrown)
    requires OrderForm.IsValid(p) && key != ""
    ensures var start := OrderForm.StartSubmit(p, now);
      var provider := SendEmail.Answered(200, SendEmail.Unreadable(thrown));
      var h := SendEmail.Post(SendEmail.Json(RequestJson(start.request)), Some(key), provider);
      && h.dispatched.Some?
      && OrderForm.FinishSubmit(start.page, ReplyAnswer(h.reply)).status == OrderForm.Errored
  {
    var start := OrderForm.StartSubmit(p, now);
    var provider := SendEmail.Answered(200, SendEmail.Unreadable(thrown));
    var h := SendEmail.Post(SendEmail.Json(RequestJson(start.request)), Some(key), provider);
    ValidPageReachesProvider(p, now, key, provider);
    RoundTrip(p, now, key, provider);
    var after := OrderForm.FinishSubmit(start.page, ReplyAnswer(h.reply));
    assert after.status != OrderForm.Succeeded;
  }

  /** Without a key the valid order is refused and the page shows the error, keeping the order for a retry. */
  lemma MissingKeyShowsError(p: OrderForm.Page, now: string, key: Option<string>, provider: SendEmail.ProviderResult)
    requires OrderForm.IsValid(p) && SendEmail.KeyMissing(key)
    ensures var start := OrderForm.StartSubmit(p, now);
      var h := SendEmail.Post(SendEmail.Json(RequestJson(start.request)), key, provider);
      && h.dispatched.None?
      && OrderForm.FinishSubmit(start.page, ReplyAnswer(h.reply)).status == OrderForm.Errored
      && OrderForm.FinishSubmit(start.page, ReplyAnswer(h.reply)).form == p.form
  {
    ClientValidationImpliesServerValidation(p, now);
  }
}

=== FILE: send_email.dfy ===
/**
 The order submission endpoint (`POST` in app/api/send-email/route.ts): it
 validates a JSON order, checks that the email provider is configured,
 composes the notification email, hands it to the provider and maps the
 provider's answer to a JSON reply.

 The provider call is an input: `ProviderResult` is what the provider would
 answer if called, and `Handled.dispatched` records whether it was called and
 with what request.
 */
module SendEmail {
  import opened Js
  import opened Text

  // ---------------------------------------------------------------------------
  // Inputs
  // ---------------------------------------------------------------------------

  /** What a `catch` clause receives: an `Error` (with its message) or any other thrown value. */
  datatype Thrown = ErrorInstance(message: string) | OtherThrown

  /** The request body: `request.json()` either rejects or yields a JSON value. */
  datatype RequestBody = Malformed(thrown: Thrown) | Json(value: Value)

  /** The provider's answer: `fetch` rejects, or a response arrives whose body may fail to parse. */
  datatype ProviderResult =
    | Unreachable(thrown: Thrown)
    | Answered(status: nat, body: ProviderBody)

  datatype ProviderBody = Readable(json: Value) | Unreadable(thrown: Thrown)

  /** `response.ok`: the status is in the range 200 to 299 (Fetch standard). */
  predicate IsOkStatus(status: nat) {
    200 <= status <= 299
  }

  // ---------------------------------------------------------------------------
  // The order and the email composed from it
  // ---------------------------------------------------------------------------

  /** The properties of the parsed body that the handler reads. */
  datatype Order = Order(
    name: Value, email: Value, phone: Value, location: Value,
    size: Value, borderColor: Value, imageData: Value)

  /** Reading the order's properties; `None` is the TypeError a `null` body raises. */
  function ReadOrder(v: Value): (r: Option<Order>)
    ensures r.None? <==> v.Null? || v.Undefined?
    ensures r.Some? ==>
      && Prop(v, "name") == Some(r.value.name) && Prop(v, "email") == Some(r.value.email)
      && Prop(v, "phone") == Some(r.value.phone) && Prop(v, "location") == Some(r.value.location)
      && Prop(v, "size") == Some(r.value.size) && Prop(v, "borderColor") == Some(r.value.borderColor)
      && Prop(v, "imageData") == Some(r.value.imageData)
  {
    if v.Null? || v.Undefined? then None
    else Some(Order(
      Prop(v, "name").value, Prop(v, "email").value, Prop(v, "phone").value,
      Prop(v, "location").value, Prop(v, "size").value,
      Prop(v, "borderColor").value, Prop(v, "imageData").value))
  }

  const NotProvided := "Not provided"
  const NotSpecified := "Not specified"
  const WhatsAppPrefix := "https://wa.me/"

  /** The dimension labels; the source's multiplication sign is mis-encoded and kept as written. */
  const A4Label := "(21 \U{00C3}\U{2014} 29.7 cm)"
  const A3Label := "(29.7 \U{00C3}\U{2014} 42 cm)"
  const A4Price := "$30"
  const A3Price := "$50"

  /**
   The values `buildEmailHtml` places in the notification, in place of the
   HTML around them. The submission timestamp is left out.
   */
  datatype EmailBody = EmailBody(
    name: Value,
    email: Value,
    phone: string,
    whatsAppLink: string,
    location: Value,
    size: Value,
    sizeLabel: string,
    borderColor: Value,
    price: string,
    imageSection: bool,
    mailto: Option<Value>)

  /**
   The template can be filled in: every interpolated field converts to a
   string, and the phone is a string (so that `replace` exists).
   */
  predicate Composable(o: Order) {
    && Printable(o.name) && Printable(o.email) && o.phone.Str?
    && Printable(o.location) && Printable(o.size) && Printable(o.borderColor)
  }

  /**
   `buildEmailHtml(formData)`. `None` is the TypeError raised while filling
   in the template: by `formData.phone.replace` when the phone is not a
   string, or by converting a field that does not print.
   */
  function BuildEmail(o: Order): (r: Option<EmailBody>)
    ensures r.Some? <==> Composable(o)
    ensures r.Some? ==> var e := r.value;
      && e.name == o.name
      && e.phone == o.phone.s
      && e.whatsAppLink == WhatsAppPrefix + Digits(o.phone.s)
      && (Truthy(o.email) ==> e.email == o.email)
      && (!Truthy(o.email) ==> e.email == Str(NotProvided))
      && (Truthy(o.location) ==> e.location == o.location)
      && (!Truthy(o.location) ==> e.location == Str(NotProvided))
      && (Truthy(o.borderColor) ==> e.borderColor == o.borderColor)
      && (!Truthy(o.borderColor) ==> e.borderColor == Str(NotSpecified))
      && e.size == o.size
      && (o.size == Str("A4") ==> e.sizeLabel == A4Label && e.price == A4Price)
      && (o.size != Str("A4") ==> e.sizeLabel == A3Label && e.price == A3Price)
      && (e.imageSection <==> Truthy(o.imageData))
      && (e.mailto.Some? <==> Truthy(o.email))
      && (e.mailto.Some? ==> e.mailto.value == o.email)
  {
    if !Composable(o) then None
    else
      var phone := o.phone.s;
      var isA4 := o.size == Str("A4");
      Some(EmailBody(
        o.name,
        OrElse(o.email, NotProvided),
        phone,
        WhatsAppPrefix + Digits(phone),
        OrElse(o.location, NotProvided),
        o.size,
        if isA4 then A4Label else A3Label,
        OrElse(o.borderColor, NotSpecified),
        if isA4 then A4Price else A3Price,
        Truthy(o.imageData),
        if Truthy(o.email) then Some(o.email) else None))
  }

  /** Every optional field is shown with some text, and the price is one of the two list prices. */
  lemma EmailFieldsNeverBlank(o: Order)
    requires BuildEmail(o).Some?
    ensures var e := BuildEmail(o).value;
      && Truthy(e.email) && Truthy(e.location) && Truthy(e.borderColor)
      && (e.price == A4Price || e.price == A3Price)
      && (e.price == A4Price <==> e.sizeLabel == A4Label)
  {
  }

  /** The number in the WhatsApp link: only digits, in the order the customer typed them. */
  lemma WhatsAppNumber(o: Order)
    requires BuildEmail(o).Some?
    ensures var link := BuildEmail(o).value.whatsAppLink;
      && link[..|WhatsAppPrefix|] == WhatsAppPrefix
      && AllDigits(link[|WhatsAppPrefix|..])
      && IsSubsequence(link[|WhatsAppPrefix|..], o.phone.s)
      && Digits(link[|WhatsAppPrefix|..]) == link[|WhatsAppPrefix|..]
  {
    var link := BuildEmail(o).value.whatsAppLink;
    assert link[|WhatsAppPrefix|..] == Digits(o.phone.s);
    DigitsSubsequence(o.phone.s);
    DigitsIdempotent(o.phone.s);
  }

  // ---------------------------------------------------------------------------
  // The provider request
  // ---------------------------------------------------------------------------

  const Sender := "ArtCanvas <onboarding@resend.dev>"
  const Recipient := "abedkoubiessy71@gmail.com"
  /** The subject line; its leading emoji is mis-encoded in the source and kept as written. */
  const Subject := "\U{00F0}\U{0178}\U{017D}\U{00A8} New Art Commission Request - ArtCanvas"
  const ProviderUrl := "https://api.resend.com/emails"
  const Base64Marker := "base64,"
  const AttachmentName := "customer-reference.png"
  const AttachmentType := "image/png"
  const AttachmentDisposition := "attachment"

  /** One attachment; `content` is `None` when `split` yields `undefined` (no marker in the data). */
  datatype Attachment = Attachment(content: Option<string>, filename: string, mediaType: string, disposition: string)

  datatype EmailPayload = EmailPayload(
    from: string, to: seq<string>, subject: string, html: EmailBody,
    attachments: Option<seq<Attachment>>)

  /** The POST sent to the provider. */
  datatype Dispatch = Dispatch(url: string, authorization: string, payload: EmailPayload)

  /**
   The attachment list built from `formData.imageData`: `Some(None)` when the
   image is falsy and no list is added, `None` for the TypeError raised by
   `split` on a truthy non-string.
   */
  function AttachmentsFor(imageData: Value): (r: Option<Option<seq<Attachment>>>)
    ensures r.None? <==> Truthy(imageData) && !imageData.Str?
    ensures r.Some? ==> (r.value.Some? <==> Truthy(imageData))
    ensures r.Some? && r.value.Some? ==>
      && |r.value.value| == 1
      && r.value.value[0].content == SecondPiece(imageData.s, Base64Marker)
      && r.value.value[0].filename == AttachmentName
      && r.value.value[0].mediaType == AttachmentType
      && r.value.value[0].disposition == AttachmentDisposition
  {
    if !Truthy(imageData) then Some(None)
    else match imageData
      case Str(uri) =>
        Some(Some([Attachment(SecondPiece(uri, Base64Marker), AttachmentName, AttachmentType, AttachmentDisposition)]))
      case _ => None
  }

  // ---------------------------------------------------------------------------
  // The reply
  // ---------------------------------------------------------------------------

  /** The exceptions the handler's `catch` turns into a 500 reply. */
  datatype Fault =
    | BodyNotJson(thrown: Thrown)          // request.json() rejected
    | NullBody                             // formData.name on a null body
    | PhoneNotString                       // formData.phone.replace is not a function
    | FieldNotPrintable                    // a field interpolated into the email does not convert to a string
    | ImageDataNotString                   // formData.imageData.split is not a function
    | FetchRejected(thrown: Thrown)        // network failure
    | ProviderBodyNotJson(thrown: Thrown)  // response.json() rejected
    | NullProviderResult                   // result.id on a null provider body

  /** The `error` field of a 500 reply from the `catch` clause. */
  datatype ErrorText = ErrorMessage(text: string) | EngineTypeError | UnknownError

  function ErrorTextOf(f: Fault): (r: ErrorText)
    // A rejected promise reports what it was rejected with ...
    ensures (f.BodyNotJson? || f.FetchRejected? || f.ProviderBodyNotJson?) ==> r == ThrownText(f.thrown)
    // ... and every other fault is a TypeError raised by the engine.
    ensures !(f.BodyNotJson? || f.FetchRejected? || f.ProviderBodyNotJson?) ==> r == EngineTypeError
    ensures r == UnknownError <==>
      (f.BodyNotJson? || f.FetchRejected? || f.ProviderBodyNotJson?) && f.thrown.OtherThrown?
  {
    match f
    case BodyNotJson(t) => ThrownText(t)
    case FetchRejected(t) => ThrownText(t)
    case ProviderBodyNotJson(t) => ThrownText(t)
    case _ => EngineTypeError
  }

  /** `error instanceof Error ? error.message : "Unknown error"` */
  function ThrownText(t: Thrown): (r: ErrorText)
    ensures t.ErrorInstance? <==> r.ErrorMessage?
    ensures t.ErrorInstance? ==> r.text == t.message
    ensures t.OtherThrown? <==> r == UnknownError
  {
    match t
    case ErrorInstance(m) => ErrorMessage(m)
    case OtherThrown => UnknownError
  }

  /**
   The first failure met while filling in the template, in the template's
   order: name, email, the phone's `replace`, location, size, border colour.
   */
  function ComposeFault(o: Order): (f: Fault)
    requires !Composable(o)
    ensures f == PhoneNotString <==> Printable(o.name) && Printable(o.email) && !o.phone.Str?
    ensures f == PhoneNotString || f == FieldNotPrintable
  {
    if !Printable(o.name) || !Printable(o.email) then FieldNotPrintable
    else if !o.phone.Str? then PhoneNotString
    else FieldNotPrintable
  }

  /** The handler's outcomes. */
  datatype Reply =
    | MissingFields                               // 400
    | NotConfigured                               // 500
    | ProviderError(status: nat, details: Value)  // 500
    | Failed(fault: Fault)                        // 500
    | Sent(emailId: Value)                        // 200

  function HttpStatus(r: Reply): nat {
    match r
    case MissingFields => 400
    case Sent(_) => 200
    case _ => 500
  }

  function Success(r: Reply): bool {
    r.Sent?
  }

  function Message(r: Reply): string {
    match r
    case MissingFields => "Name and phone are required"
    case NotConfigured => "Email service not configured"
    case ProviderError(status, _) => "Email service error: " + Decimal(status)
    case Failed(_) => "Failed to send email"
    case Sent(_) => "Email sent successfully"
  }

  /** A reply reports success exactly when its HTTP status is 200, and never with a 4xx or 5xx status. */
  lemma SuccessIffStatus200(r: Reply)
    ensures Success(r) <==> HttpStatus(r) == 200
    ensures !Success(r) <==> HttpStatus(r) in {400, 500}
  {
  }

  /** The provider's status can be read back from the error message. */
  lemma ProviderErrorMessage(status: nat, details: Value)
    ensures var m := Message(ProviderError(status, details));
      var prefix := "Email service error: ";
      && m[..|prefix|] == prefix
      && AllDigits(m[|prefix|..])
      && DecimalValue(m[|prefix|..]) == status
  {
    var prefix := "Email service error: ";
    var m := Message(ProviderError(status, details));
    assert m[|prefix|..] == Decimal(status);
    DecimalRoundTrip(status);
  }

  // ---------------------------------------------------------------------------
  // The handler
  // ---------------------------------------------------------------------------

  /** The reply, and the provider request when one was made. */
  datatype Handled = Handled(reply: Reply, dispatched: Option<Dispatch>)

  /** `!process.env.RESEND_API_KEY` */
  predicate KeyMissing(apiKey: Option<string>) {
    apiKey.None? || apiKey.value == ""
  }

  /** The order passes the handler's own check: both `name` and `phone` are truthy. */
  predicate HasRequiredFields(o: Order) {
    Truthy(o.name) && Truthy(o.phone)
  }

  /** How the provider's answer becomes the reply. */
  function MapProviderResult(p: ProviderResult): (r: Reply)
    ensures r.Sent? <==> p.Answered? && IsOkStatus(p.status) && p.body.Readable? && !p.body.json.Null? && !p.body.json.Undefined?
    ensures r.Sent? ==> Some(r.emailId) == Prop(p.body.json, "id")
    ensures r.ProviderError? <==> p.Answered? && !IsOkStatus(p.status) && p.body.Readable?
    ensures r.ProviderError? ==> r.status == p.status && r.details == p.body.json
    ensures !r.Sent? && !r.ProviderError? ==> r.Failed?
    // The three failures, each carrying what was thrown.
    ensures p.Unreachable? ==> r == Failed(FetchRejected(p.thrown))
    ensures p.Answered? && p.body.Unreadable? ==> r == Failed(ProviderBodyNotJson(p.body.thrown))
    ensures p.Answered? && IsOkStatus(p.status) && p.body.Readable? && (p.body.json.Null? || p.body.json.Undefined?)
      ==> r == Failed(NullProviderResult)
  {
    match p
    case Unreachable(t) => Failed(FetchRejected(t))
    case Answered(status, Unreadable(t)) => Failed(ProviderBodyNotJson(t))
    case Answered(status, Readable(json)) =>
      if !IsOkStatus(status) then ProviderError(status, json)
      else match Prop(json, "id")
        case None => Failed(NullProviderResult)
        case Some(id) => Sent(id)
  }

  /**
   `POST(request)` with the API key passed in and the provider's answer as
   an input.
   */
  function Post(body: RequestBody, apiKey: Option<string>, provider: ProviderResult): (h: Handled)
    // Validation comes first: a missing name or phone gives 400 and no provider call.
    ensures body.Json? && ReadOrder(body.value).Some? && !HasRequiredFields(ReadOrder(body.value).value)
      ==> h == Handled(MissingFields, None)
    // Configuration comes second: a valid order without a key gives 500 and no provider call.
    ensures body.Json? && ReadOrder(body.value).Some? && HasRequiredFields(ReadOrder(body.value).value) && KeyMissing(apiKey)
      ==> h == Handled(NotConfigured, None)
    // A valid order with a key, whose email can be composed and whose image (if any) is a string, reaches the provider.
    ensures body.Json? && ReadOrder(body.value).Some? ==>
      var o := ReadOrder(body.value).value;
      HasRequiredFields(o) && !KeyMissing(apiKey) && Composable(o) && AttachmentsFor(o.imageData).Some?
      ==> h.dispatched.Some?
    // A truthy image that is not a string fails at `split`, after the email was composed.
    ensures body.Json? && ReadOrder(body.value).Some? ==>
      var o := ReadOrder(body.value).value;
      HasRequiredFields(o) && !KeyMissing(apiKey) && Composable(o) && AttachmentsFor(o.imageData).None?
      ==> h == Handled(Failed(ImageDataNotString), None)
    // The request goes to the provider's endpoint, from the shop's sender to the shop's inbox, with the fixed subject.
    ensures h.dispatched.Some? ==>
      && h.dispatched.value.url == ProviderUrl
      && h.dispatched.value.payload.from == Sender
      && h.dispatched.value.payload.to == [Recipient]
      && h.dispatched.value.payload.subject == Subject
    // The provider is called only for a valid order, with a key, that could be composed.
    ensures h.dispatched.Some? ==>
      && body.Json? && ReadOrder(body.value).Some?
      && var o := ReadOrder(body.value).value;
      && HasRequiredFields(o) && !KeyMissing(apiKey) && Composable(o)
      && h.dispatched.value.authorization == "Bearer " + apiKey.value
      && Some(h.dispatched.value.payload.html) == BuildEmail(o)
      && (h.dispatched.value.payload.attachments.Some? <==> Truthy(o.imageData))
      && Some(h.dispatched.value.payload.attachments) == AttachmentsFor(o.imageData)
    // Once the provider is called, its answer decides the reply.
    ensures h.dispatched.Some? ==> h.reply == MapProviderResult(provider)
    // Every other path ends in the catch clause or an early return, without a provider call.
    ensures h.dispatched.None? ==> h.reply.MissingFields? || h.reply.NotConfigured? || h.reply.Failed?
    ensures h.reply.Sent? ==> h.dispatched.Some?
  {
    match body
    case Malformed(t) => Handled(Failed(BodyNotJson(t)), None)
    case Json(v) =>
      match ReadOrder(v)
      case None => Handled(Failed(NullBody), None)
      case Some(o) =>
        if !HasRequiredFields(o) then Handled(MissingFields, None)
        else if KeyMissing(apiKey) then Handled(NotConfigured, None)
        else match BuildEmail(o)
          case None => Handled(Failed(ComposeFault(o)), None)
          case Some(email) =>
            match AttachmentsFor(o.imageData)
            case None => Handled(Failed(ImageDataNotString), None)
            case Some(attachments) =>
              Handled(MapProviderResult(provider), Some(Dispatch(ProviderUrl, "Bearer " + apiKey.value,
                EmailPayload(Sender, [Recipient], Subject, email, attachments))))
  }

  /**
   The exceptions raised before the provider is called (a request body that
   is not JSON, a `null` body, a phone or shown field that cannot be used in
   the template) are caught and reported as a 500 without a provider call.
   */
  lemma ThrownErrorsAreCaught(body: RequestBody, apiKey: Option<string>, provider: ProviderResult)
    ensures var h := Post(body, apiKey, provider);
      && (body.Malformed? ==> h == Handled(Failed(BodyNotJson(body.thrown)), None))
      && (body.Json? && (body.value.Null? || body.value.Undefined?) ==> h == Handled(Failed(NullBody), None))
      && (body.Json? && ReadOrder(body.value).Some? && HasRequiredFields(ReadOrder(body.value).value)
          && !KeyMissing(apiKey) && !Composable(ReadOrder(body.value).value)
          ==> h == Handled(Failed(ComposeFault(ReadOrder(body.value).value)), None))
      && (h.reply.Failed? ==> HttpStatus(h.reply) == 500 && !Success(h.reply) && Message(h.reply) == "Failed to send email")
  {
  }

  /**
   An order whose name and phone are non-empty strings is dispatched once a
   key is configured, exactly when its other shown fields print.
   */
  lemma StringOrderIsDispatched(body: RequestBody, key: string, provider: ProviderResult)
    requires body.Json? && body.value.Obj?
    requires var o := ReadOrder(body.value).value;
      o.name.Str? && o.name.s != "" && o.phone.Str? && o.phone.s != ""
      && (o.imageData.Str? || o.imageData.Null? || o.imageData.Undefined?)
    requires key != ""
    ensures var o := ReadOrder(body.value).value;
      Post(body, Some(key), provider).dispatched.Some? <==>
        Printable(o.email) && Printable(o.location) && Printable(o.size) && Printable(o.borderColor)
  {
  }

  /** An object with its own `toString` in a shown field makes the handler fail before the provider is called. */
  lemma OwnToStringFails(name: map<string, Value>, key: string, provider: ProviderResult)
    requires "toString" in name && key != ""
    ensures var body := Json(Obj(map["name" := Obj(name), "phone" := Str("1")]));
      Post(body, Some(key), provider) == Handled(Failed(FieldNotPrintable), None)
  {
    var v := Obj(map["name" := Obj(name), "phone" := Str("1")]);
    assert Prop(v, "name") == Some(Obj(name));
    assert Prop(v, "phone") == Some(Str("1"));
    assert !Printable(Obj(name));
  }

  /** The handler only asks for truthy fields: a numeric, non-zero name is sent on to the provider. */
  lemma NumericNameDispatched(n: real, key: string, provider: ProviderResult)
    requires n != 0.0 && key != ""
    ensures var h := Post(Json(Obj(map["name" := Num(n), "phone" := Str("1")])), Some(key), provider);
      h.dispatched.Some? && h.reply == MapProviderResult(provider)
  {
  }

  /** A valid order with a data-URI image attaches exactly the base64 payload. */
  lemma AttachmentIsPayload(body: RequestBody, key: string, provider: ProviderResult, prefix: string, payload: string)
    requires body.Json? && ReadOrder(body.value).Some?
    requires var o := ReadOrder(body.value).value;
      HasRequiredFields(o) && Composable(o) && o.imageData == Str(prefix + Base64Marker + payload)
    requires key != ""
    requires NoComma(prefix) && NoComma(payload)
    ensures var h := Post(body, Some(key), provider);
      h.dispatched.Some? && h.dispatched.value.payload.attachments.Some?
      && h.dispatched.value.payload.attachments.value[0].content == Some(payload)
  {
    SecondPieceOfDataUri(prefix, payload);
  }

  /** A customer's formatted phone number becomes its bare digit groups in the link. */
  lemma FormattedPhoneLink(o: Order, country: string, area: string, exchange: string, line: string)
    requires AllDigits(country) && AllDigits(area) && AllDigits(exchange) && AllDigits(line)
    requires o.phone == Str("+" + country + " (" + area + ") " + exchange + "-" + line)
    ensures BuildEmail(o).Some? ==> BuildEmail(o).value.whatsAppLink == WhatsAppPrefix + country + area + exchange + line
  {
    FormattedPhoneDigits(country, area, exchange, line);
  }

  /** A provider rejection with status 422 is reported with that status and the provider's body. */
  lemma ProviderRejectionReported(body: RequestBody, key: string)
    requires body.Json? && ReadOrder(body.value).Some?
    requires var o := ReadOrder(body.value).value;
      HasRequiredFields(o) && Composable(o) && (o.imageData.Str? || o.imageData.Null? || o.imageData.Undefined?)
    requires key != ""
    ensures var answer := Obj(map["message" := Str("invalid recipient")]);
      var h := Post(body, Some(key), Answered(422, Readable(answer)));
      && h.dispatched.Some?
      && !Success(h.reply) && HttpStatus(h.reply) == 500
      && Message(h.reply) == "Email service error: 422"
      && h.reply.details == answer
      && Prop(h.reply.details, "message") == Some(Str("invalid recipient"))
  {
    var answer := Obj(map["message" := Str("invalid recipient")]);
    var h := Post(body, Some(key), Answered(422, Readable(answer)));
    assert h.reply == ProviderError(422, answer);
    Decimal422();
  }
}

=== FILE: text.dfy ===
/**
 The string operations the site applies to user input: stripping a phone
 number to its digits (`replace(/[^0-9]/g, "")`), JavaScript's `trim`,
 `split(sep)[1]`, and the decimal rendering of a status code in a template
 literal.
 */
module Text {
  import opened Js

  // ---------------------------------------------------------------------------
  // Digits of a phone number
  // ---------------------------------------------------------------------------

  predicate IsDigit(c: char) {
    '0' <= c <= '9'
  }

  predicate AllDigits(s: string) {
    forall i :: 0 <= i < |s| ==> IsDigit(s[i])
  }

  /** `s.replace(/[^0-9]/g, "")`: the characters of `s` that are ASCII digits. */
  function Digits(s: string): (r: string)
    ensures AllDigits(r)
    ensures |r| <= |s|
  {
    if s == [] then []
    else (if IsDigit(s[0]) then [s[0]] else []) + Digits(s[1..])
  }

  /** `a` can be obtained from `b` by deleting characters. */
  predicate IsSubsequence(a: string, b: string)
    decreases |b|
  {
    if a == [] then true
    else if b == [] then false
    else if a[0] == b[0] then IsSubsequence(a[1..], b[1..])
    else IsSubsequence(a, b[1..])
  }

  lemma {:induction false} DigitsAppend(a: string, b: string)
    ensures Digits(a + b) == Digits(a) + Digits(b)
    decreases |a|
  {
    if a == [] {
      assert a + b == b;
    } else {
      var head := if IsDigit(a[0]) then [a[0]] else [];
      assert (a + b)[0] == a[0] && (a + b)[1..] == a[1..] + b;
      assert Digits(a + b) == head + Digits(a[1..] + b);
      DigitsAppend(a[1..], b);
      assert head + (Digits(a[1..]) + Digits(b)) == (head + Digits(a[1..])) + Digits(b);
    }
  }

  /** A string of digits is left as it is. */
  lemma {:induction false} DigitsOfDigits(s: string)
    requires AllDigits(s)
    ensures Digits(s) == s
  {
    if s != [] {
      assert AllDigits(s[1..]);
      DigitsOfDigits(s[1..]);
    }
  }

  /** Stripping twice strips nothing more. */
  lemma DigitsIdempotent(s: string)
    ensures Digits(Digits(s)) == Digits(s)
  {
    DigitsOfDigits(Digits(s));
  }

  /** The digits stay in their original order. */
  lemma {:induction false} DigitsSubsequence(s: string)
    ensures IsSubsequence(Digits(s), s)
  {
    if s != [] {
      DigitsSubsequence(s[1..]);
      if IsDigit(s[0]) {
        assert Digits(s)[0] == s[0];
        assert Digits(s)[1..] == Digits(s[1..]);
      } else {
        assert Digits(s) == Digits(s[1..]);
        SubsequenceDropHead(Digits(s[1..]), s);
      }
    }
  }

  lemma {:induction false} SubsequenceDropHead(a: string, b: string)
    requires b != []
    requires IsSubsequence(a, b[1..])
    ensures IsSubsequence(a, b)
    decreases |a| + |b|
  {
    if a != [] && a[0] == b[0] {
      // IsSubsequence(a, b) reduces to IsSubsequence(a[1..], b[1..]).
      SubsequenceTail(a, b[1..]);
    }
  }

  lemma {:induction false} SubsequenceTail(a: string, b: string)
    requires a != []
    requires IsSubsequence(a, b)
    ensures IsSubsequence(a[1..], b)
    decreases |a| + |b|
  {
    if b != [] {
      if a[0] == b[0] {
        SubsequenceDropHead(a[1..], b);
      } else {
        SubsequenceTail(a, b[1..]);
        SubsequenceDropHead(a[1..], b);
      }
    }
  }

  /** Every digit occurrence is kept, and nothing else is. */
  lemma {:induction false} DigitsCounts(s: string, c: char)
    ensures IsDigit(c) ==> multiset(Digits(s))[c] == multiset(s)[c]
    ensures !IsDigit(c) ==> multiset(Digits(s))[c] == 0
  {
    if s != [] {
      DigitsCounts(s[1..], c);
      assert s == [s[0]] + s[1..];
      assert multiset(s) == multiset([s[0]]) + multiset(s[1..]);
    }
  }

  /** The scan behind the global regular-expression replacement. */
  method StripNonDigits(s: string) returns (r: string)
    ensures r == Digits(s)
  {
    r := "";
    var i := 0;
    while i < |s|
      invariant 0 <= i <= |s|
      invariant r == Digits(s[..i])
    {
      DigitsAppend(s[..i], [s[i]]);
      assert s[..i + 1] == s[..i] + [s[i]];
      if IsDigit(s[i]) {
        r := r + [s[i]];
      }
      i := i + 1;
    }
    assert s[..i] == s;
  }

  /** The punctuation of a formatted phone number holds no digits. */
  lemma SeparatorDigits()
    ensures Digits("+") == "" && Digits(" (") == "" && Digits(") ") == "" && Digits("-") == ""
  {
  }

  /** Appending a piece whose digits are known. */
  lemma DigitsSnoc(a: string, b: string, da: string, db: string)
    requires Digits(a) == da && Digits(b) == db
    ensures Digits(a + b) == da + db
  {
    DigitsAppend(a, b);
  }

  /** Digit groups interleaved with digit-free separators keep exactly the groups. */
  lemma DigitsOfGroups(p1: string, g1: string, p2: string, g2: string, p3: string, g3: string, p4: string, g4: string)
    requires Digits(p1) == "" && Digits(p2) == "" && Digits(p3) == "" && Digits(p4) == ""
    requires AllDigits(g1) && AllDigits(g2) && AllDigits(g3) && AllDigits(g4)
    ensures Digits(p1 + g1 + p2 + g2 + p3 + g3 + p4 + g4) == g1 + g2 + g3 + g4
  {
    DigitsOfDigits(g1);
    DigitsOfDigits(g2);
    DigitsOfDigits(g3);
    DigitsOfDigits(g4);
    DigitsSnoc(p1, g1, [], g1);
    DigitsSnoc(p1 + g1, p2, g1, []);
    DigitsSnoc(p1 + g1 + p2, g2, g1, g2);
    DigitsSnoc(p1 + g1 + p2 + g2, p3, g1 + g2, []);
    DigitsSnoc(p1 + g1 + p2 + g2 + p3, g3, g1 + g2, g3);
    DigitsSnoc(p1 + g1 + p2 + g2 + p3 + g3, p4, g1 + g2 + g3, []);
    DigitsSnoc(p1 + g1 + p2 + g2 + p3 + g3 + p4, g4, g1 + g2 + g3, g4);
  }

  /**
   A number formatted as `+C (AAA) EEE-LLLL` keeps exactly its digit groups,
   in order.
   */
  lemma FormattedPhoneDigits(country: string, area: string, exchange: string, line: string)
    requires AllDigits(country) && AllDigits(area) && AllDigits(exchange) && AllDigits(line)
    ensures Digits("+" + country + " (" + area + ") " + exchange + "-" + line)
      == country + area + exchange + line
  {
    SeparatorDigits();
    DigitsOfGroups("+", country, " (", area, ") ", exchange, "-", line);
  }

  // ---------------------------------------------------------------------------
  // String.prototype.trim
  // ---------------------------------------------------------------------------

  /**
   The characters `trim` removes: the WhiteSpace and LineTerminator code
   points of section 12.2 and 12.3 of ECMA-262.
   */
  predicate IsJsSpace(c: char) {
    || '\U{0009}' <= c <= '\U{000D}'
    || c == ' ' || c == '\U{00A0}' || c == '\U{1680}'
    || '\U{2000}' <= c <= '\U{200A}'
    || c == '\U{2028}' || c == '\U{2029}' || c == '\U{202F}' || c == '\U{205F}'
    || c == '\U{3000}' || c == '\U{FEFF}'
  }

  predicate AllSpaces(s: string) {
    forall i :: 0 <= i < |s| ==> IsJsSpace(s[i])
  }

  /** The number of whitespace characters at the start of `s`. */
  function LeadingSpaces(s: string): (n: nat)
    ensures n <= |s|
    ensures AllSpaces(s[..n])
    ensures n < |s| ==> !IsJsSpace(s[n])
  {
    if s == [] || !IsJsSpace(s[0]) then 0
    else
      var n := 1 + LeadingSpaces(s[1..]);
      assert s[..n] == [s[0]] + s[1..][..n - 1];
      n
  }

  /**
   `s.trim()`: `s` without its leading and trailing whitespace. Leading
   characters are dropped first, then trailing ones.
   */
  function Trim(s: string): (r: string)
    ensures |r| <= |s|
    ensures r == "" <==> AllSpaces(s)
    decreases |s|
  {
    if s == [] then s
    else if IsJsSpace(s[0]) then
      var r := Trim(s[1..]);
      assert AllSpaces(s[1..]) ==> AllSpaces(s);
      r
    else if IsJsSpace(s[|s| - 1]) then
      var init := s[..|s| - 1];
      assert init[0] == s[0];
      Trim(init)
    else s
  }

  /**
   The trimmed string is the slice of `s` that follows its leading
   whitespace and precedes only whitespace, and it neither starts nor ends
   with whitespace.
   */
  predicate IsInnerSlice(s: string, r: string) {
    var a := LeadingSpaces(s);
    && a + |r| <= |s| && s[a..a + |r|] == r
    && AllSpaces(s[a + |r|..])
    && (r != "" ==> !IsJsSpace(r[0]) && !IsJsSpace(r[|r| - 1]))
  }

  lemma {:induction false} TrimIsInnerSlice(s: string)
    ensures IsInnerSlice(s, Trim(s))
    decreases |s|
  {
    if s == [] {
    } else if IsJsSpace(s[0]) {
      TrimIsInnerSlice(s[1..]);
      InnerSliceAfterLeadingSpace(s, Trim(s[1..]));
    } else if IsJsSpace(s[|s| - 1]) {
      TrimIsInnerSlice(s[..|s| - 1]);
      InnerSliceBeforeTrailingSpace(s, Trim(s[..|s| - 1]));
    } else {
      assert s[0..|s|] == s;
    }
  }

  lemma InnerSliceAfterLeadingSpace(s: string, r: string)
    requires s != [] && IsJsSpace(s[0]) && IsInnerSlice(s[1..], r)
    ensures IsInnerSlice(s, r)
  {
    var a := LeadingSpaces(s[1..]);
    assert LeadingSpaces(s) == a + 1;
    assert s[1..][a..a + |r|] == s[a + 1..a + 1 + |r|];
    assert s[1..][a + |r|..] == s[a + 1 + |r|..];
  }

  lemma InnerSliceBeforeTrailingSpace(s: string, r: string)
    requires s != [] && !IsJsSpace(s[0]) && IsJsSpace(s[|s| - 1])
    requires IsInnerSlice(s[..|s| - 1], r)
    ensures IsInnerSlice(s, r)
  {
    var init := s[..|s| - 1];
    assert init[0] == s[0];
    assert LeadingSpaces(init) == 0 && LeadingSpaces(s) == 0;
    assert init[..|r|] == s[..|r|];
    assert s[|r|..] == init[|r|..] + [s[|s| - 1]];
  }

  // ---------------------------------------------------------------------------
  // String.prototype.split(sep)[1]
  // ---------------------------------------------------------------------------

  /** `sep` occurs in `s` starting at index `k`. */
  predicate OccursAt(s: string, sep: string, k: nat) {
    k + |sep| <= |s| && s[k..k + |sep|] == sep
  }

  /** The first index at or after `from` where `sep` occurs in `s`. */
  function IndexFrom(s: string, sep: string, from: nat): (r: Option<nat>)
    requires from <= |s|
    ensures r.Some? ==> from <= r.value && OccursAt(s, sep, r.value)
    ensures forall k :: from <= k && OccursAt(s, sep, k) ==> r.Some? && r.value <= k
    decreases |s| - from
  {
    if OccursAt(s, sep, from) then Some(from)
    else if from == |s| then None
    else IndexFrom(s, sep, from + 1)
  }

  /** `s.indexOf(sep)` with -1 as `None`. */
  function IndexOf(s: string, sep: string): (r: Option<nat>)
    ensures r.Some? ==> OccursAt(s, sep, r.value)
    ensures forall k :: OccursAt(s, sep, k) ==> r.Some? && r.value <= k
  {
    IndexFrom(s, sep, 0)
  }

  /** `piece` is the text of `rest` up to the first occurrence of `sep`, or all of `rest` when there is none. */
  predicate SecondPieceOf(rest: string, sep: string, piece: string) {
    && |piece| <= |rest| && rest[..|piece|] == piece
    && (|piece| == |rest| || OccursAt(rest, sep, |piece|))
    && forall k: nat :: k < |piece| ==> !OccursAt(rest, sep, k)
  }

  /**
   `s.split(sep)[1]` for a non-empty separator: the piece between the first
   and the second occurrence of `sep` (or the end of `s`); `None` is the
   `undefined` read when `sep` does not occur at all.
   */
  function SecondPiece(s: string, sep: string): (r: Option<string>)
    requires sep != ""
    ensures r.None? <==> forall k :: !OccursAt(s, sep, k)
    // The piece starts right after the first occurrence and runs up to the next
    // occurrence, or to the end of `s` when there is none.
    ensures r.Some? ==> IndexOf(s, sep).Some? && SecondPieceOf(s[IndexOf(s, sep).value + |sep|..], sep, r.value)
  {
    match IndexOf(s, sep)
    case None => None
    case Some(i) =>
      var rest := s[i + |sep|..];
      match IndexOf(rest, sep)
      case None =>
        assert rest[..|rest|] == rest;
        Some(rest)
      case Some(j) => Some(rest[..j])
  }

  predicate NoComma(s: string) {
    forall i :: 0 <= i < |s| ==> s[i] != ','
  }

  /** A string without a comma holds no occurrence of a separator that ends in one. */
  lemma NoOccurrenceWithoutComma(s: string, sep: string, k: nat)
    requires sep != "" && sep[|sep| - 1] == ','
    requires NoComma(s)
    ensures !OccursAt(s, sep, k)
  {
    if k + |sep| <= |s| {
      assert s[k..k + |sep|][|sep| - 1] == s[k + |sep| - 1];
    }
  }

  /**
   For a data URI `prefix + "base64," + payload` whose media-type prefix and
   base64 payload hold no comma (as `toDataURL` produces), the second piece is
   exactly the payload.
   */
  lemma SecondPieceOfDataUri(prefix: string, payload: string)
    requires NoComma(prefix) && NoComma(payload)
    ensures SecondPiece(prefix + "base64," + payload, "base64,") == Some(payload)
  {
    var sep := "base64,";
    var s := prefix + sep + payload;
    assert OccursAt(s, sep, |prefix|) by {
      assert s[|prefix|..|prefix| + |sep|] == sep;
    }
    forall k: nat | k < |prefix| ensures !OccursAt(s, sep, k) {
      assert s[k..k + |sep|][6] == s[k + 6];
      if k + 6 < |prefix| {
        assert s[k + 6] == prefix[k + 6];
      } else {
        assert s[k + 6] == sep[k + 6 - |prefix|];
      }
    }
    var i := IndexOf(s, sep);
    assert i == Some(|prefix|);
    assert s[|prefix| + |sep|..] == payload;
    forall k: nat ensures !OccursAt(payload, sep, k) {
      NoOccurrenceWithoutComma(payload, sep, k);
    }
  }

  // ---------------------------------------------------------------------------
  // Decimal rendering of a non-negative integer
  // ---------------------------------------------------------------------------

  function DigitChar(d: nat): (c: char)
    requires d < 10
    ensures IsDigit(c)
  {
    ['0', '1', '2', '3', '4', '5', '6', '7', '8', '9'][d]
  }

  function DigitValue(c: char): nat
    requires IsDigit(c)
  {
    (c as int - '0' as int) as nat
  }

  /** `${n}` for a non-negative integer `n`. */
  function Decimal(n: nat): (r: string)
    ensures r != "" && AllDigits(r)
    ensures r[0] == '0' ==> n == 0
  {
    if n < 10 then [DigitChar(n)]
    else Decimal(n / 10) + [DigitChar(n % 10)]
  }

  /** The number a string of digits denotes. */
  function DecimalValue(s: string): nat
    requires AllDigits(s)
  {
    if s == [] then 0
    else 10 * DecimalValue(s[..|s| - 1]) + DigitValue(s[|s| - 1])
  }

  /** The rendering of 422, digit by digit. */
  lemma Decimal422()
    ensures Decimal(422) == "422"
  {
    assert Decimal(4) == "4";
    assert Decimal(42) == Decimal(4) + ['2'];
    assert Decimal(422) == Decimal(42) + ['2'];
  }

  /** Reading back the rendered digits gives the number. */
  lemma {:induction false} DecimalRoundTrip(n: nat)
    ensures DecimalValue(Decimal(n)) == n
  {
    if n >= 10 {
      DecimalRoundTrip(n / 10);
      var s := Decimal(n);
      assert s[..|s| - 1] == Decimal(n / 10);
    }
  }
}
